=== FILE: README.md ===
# ESP32 IoT sensor pipeline — a Dafny model

An ESP32 board simulates a sensor with a bounded random walk. At start-up
it builds an identity record: its own name and MAC address, and one
address per sensor index, formed from the MAC address, a colon and the
index. It renders itself and its readings to JSON documents and publishes
them over MQTT. A Python server decodes each packet. It keeps one
registry of devices and one of sensors, keyed by address, and turns each
packet into writer records whose SQL `INSERT` statements go to SQLite.

The model has six modules:

- `Walk` (`random_walk.dfy`): the random walk as a class whose `price`
  each `Iteration` updates in place. The step itself is the function
  `Next`. The noise sample a step would draw is a parameter.
- `Documents` (`documents.dfy`): JSON values whose objects keep members
  in insertion order. It covers ArduinoJson's `doc[key] = v` and
  `doc.add(v)`, and the dictionary lookup and key iteration that
  `json.loads` gives Python, where a repeated key keeps its last value.
- `DeviceModel` (`device.dfy`): the firmware's `Sensor` and
  `SensorReading` are values (datatypes, whose constructors are the C++
  constructors). `Device` is a class whose sensor list `AddSensor`
  extends in place. Each entity renders to its document with `Parse`.
- `SensorAddresses` (`sensor_addresses.dfy`): the identity record that
  `device_name_to_address` builds with its loop, and the firmware's
  start-up objects.
- `Writers` (`writers.dfy`): the server's writer records and their SQL
  text. A function `QuotedFields` reads a statement back by collecting the
  contents of its double-quoted literals.
- `MqttSub` (`mqtt_sub.dfy`): `json_parse_device`, `json_parse_reading`
  and `parse_json`, with the registries as fields of a `Subscriber`.
  Python's exceptions are modelled as values. A KeyError is caught and
  gives a `None` result (`ReturnedNone`). A TypeError escapes (`Raised`).
  TypeError comes from subscripting a non-dict, iterating None or a
  number, or using a list or dict as a registry key.

Choices where the code differs from the documentation or from what the
authors evidently meant. The model follows the code:

- A device with no sensors renders `"sensors": null`, not an empty list.
  ArduinoJson's `add` is what turns the null document into an array. The
  firmware's own device never gets a sensor, so the server fails on its
  packet with a TypeError (`MqttSub.DeviceWithoutSensorsRaises`).
- Line 94 of `server/mqtt_sub.py` tests the bound method
  `sensor_object.address`, not its result. That test is always true, so
  every sensor of a Device packet overwrites its registry entry and is
  appended to the result, even when already registered.
- The identity loop runs for indices 0 through `sensorNo` inclusive. With
  one configured sensor it builds two entries. A name past the end of
  `SENSOR_NAME` is the empty string: Arduino's `String` returns `'\0'` for
  an index past its end, and a `String` made from `'\0'` is empty.
- Field values go into the SQL text between double quotes with no
  escaping (`Writers.QuotesAreNotEscaped`).

## Model

| member | source | states |
|---|---|---|
| Walk.RandomWalk.constructor | lib/random_walk/random_walk.cc:17-24 | the default walk starts at price 0 in the band [0, 4096], and the band is wide enough and the price inside it |
| Walk.RandomWalk.Seeded | lib/random_walk/random_walk.cc:25-32 | a walk seeded with p starts at p in the band [p - 10, p + 10] |
| Walk.RandomWalk.GetPrice | lib/random_walk/random_walk.cc:34-37 | returns the current price and changes nothing |
| Walk.RandomWalk.Iteration | lib/random_walk/random_walk.cc:39-53 | below the band the price becomes lBound + 1; above uBound - 1 it becomes uBound - 1; otherwise the sample is added; the bounds never change; with a sample in [-1, 1], a price in [lBound - 1, uBound] stays there |
| Walk.Next | lib/random_walk/random_walk.cc:41-52 | a recovery step lands inside [l, u - 1]; with a sample in [-1, 1], a price in [l - 1, u] stays there |
| Walk.RecoveryThenPerturb | lib/random_walk/random_walk.cc:41-52 | after a recovery step, the next step adds its sample unchanged |
| Walk.Run | lib/random_walk/random_walk.cc:39-53 | any number of steps with samples in [-1, 1] keeps a price that starts in [l - 1, u] within [l - 1, u] |
| Documents.Assign | lib/device/device.cc:48-50 | `obj[key] = v` appends a fresh key at the end; on an existing key the length stays the same and the key stays present |
| Documents.AssignInPlace | lib/device/device.cc:48-50 | on an existing key, the first member with that key takes the new value where it stands, and every other member stays |
| Documents.Set | lib/device/device.cc:48-50 | a null document becomes an object holding just the assigned member; a fresh key is appended to an object |
| Documents.Add | lib/device/device.cc:51-54 | adding to null gives the one-item array; adding to an array keeps its items and puts the value at the end; any other document is unchanged |
| Documents.Lookup | server/mqtt_sub.py:49-52 | a value the lookup finds is stored in the members under that key |
| Documents.LookupFinds | server/mqtt_sub.py:49-52 | a lookup fails exactly when no member has the key; otherwise it finds a member with that key |
| Documents.LookupLast | server/mqtt_sub.py:49-52 | a member with no later member of the same key is what the lookup finds |
| Documents.FirstKeys | server/mqtt_sub.py:55 | iterating a dictionary yields exactly its keys, each once: no more keys than members, and none exactly when it is empty |
| DeviceModel.Device.constructor | lib/device/device.cc:23-28 | the device keeps the given address and type and starts with no sensors |
| DeviceModel.Device.WithSensors | lib/device/device.cc:30-35 | the device keeps the given address, type and sensor list |
| DeviceModel.Device.GetAddress | lib/device/device.cc:39-42 | returns the address given at construction |
| DeviceModel.Device.Parse | lib/device/device.cc:44-57 | the document holds packet_type "Device", the address, the type and the sensors' documents, in that order |
| DeviceModel.SensorDocs | lib/device/device.cc:47-55 | the sensors' document is null exactly when there are no sensors; otherwise it is an array of each sensor's document, in order |
| DeviceModel.SensorDocsAppend | lib/device/device.cc:51-54 | adding one more sensor puts its document at the end of the array and keeps the earlier entries |
| DeviceModel.Device.AddSensor | lib/device/device.cc:59-62 | the sensor list becomes the old list with the sensor appended |
| DeviceModel.Sensor.GetAddress | lib/device/device.cc:73-76 | returns the address given at construction |
| DeviceModel.Sensor.Parse | lib/device/device.cc:81-91 | the document is exactly sensor_address, sensor_name, sensor_description and unit, in that order, and has no packet_type |
| DeviceModel.SensorReading.Parse | lib/device/device.cc:104-111 | the document is exactly packet_type "SensorReading", sensor_address and data_value, in that order |
| DeviceModel.SensorReading.GetAddress | lib/device/device.cc:113-116 | returns the sensor address given at construction |
| SensorAddresses.Decimal | src/main.cc:54-55 | Arduino's `String(i)` is a non-empty string of decimal digits, and starts with '0' only for zero |
| SensorAddresses.DecimalInjective | src/main.cc:54-55 | different numbers have different decimal texts |
| SensorAddresses.SensorIdentifier | src/main.cc:54-55 | a sensor address starts with the MAC address and a colon, followed by at least two characters |
| SensorAddresses.IdentifierSuffix | src/main.cc:54-55 | after the MAC address and the colon comes '0' and the index for indices below ten, and the bare index otherwise |
| SensorAddresses.IdentifiersDistinct | src/main.cc:52-56 | sensors with different indices get different addresses |
| SensorAddresses.NameAt | src/main.cc:56 | entry i is named by the i-th character of SENSOR_NAME, or by the empty string past its end |
| SensorAddresses.DeviceNameToAddress.constructor | src/main.cc:49-58 | the record holds the device name and MAC address and, for every index from 0 through sensorNo inclusive (sensorNo + 1 entries), that index's name and address |
| SensorAddresses.StartUp | src/main.cc:60-64 | with one configured sensor, the identity record holds two sensor entries ("R", mac:00) and ("A", mac:01); the device has no sensors; the walk starts at 15 in [5, 25] |
| Writers.DeviceWriter.Address | server/device_writer.py:50-52 | returns the address given at construction |
| Writers.SensorWriter.Address | server/device_writer.py:93-94 | returns the address given at construction |
| Writers.SensorWriter.CreateReadings | server/device_writer.py:108-115 | the reading record is bound to this sensor and carries the given value |
| Writers.Writer.Str | server/device_writer.py:22-30 | a record's text is its SQL statement; the base writer's statement is empty |
| Writers.DeviceQueryFields | server/device_writer.py:62-66 | when neither field holds a double quote, the device statement's quoted values are exactly the address and the type, verbatim and in that order |
| Writers.SensorQueryFields | server/device_writer.py:96-101 | when no field holds a double quote, the sensor statement's quoted values are exactly the sensor address, the linked device's address, the name, the description and the unit, in that order |
| Writers.ReadingsQueryFields | server/device_writer.py:143-147 | when neither field holds a double quote, the reading statement's quoted values are exactly the bound sensor's address and the value |
| Writers.DeviceWriter.SqlQuery | server/device_writer.py:62-66 | the device statement, after its leading blanks, is an INSERT OR IGNORE INTO Devices(device_address, device_type) |
| Writers.SensorWriter.SqlQuery | server/device_writer.py:96-101 | the sensor statement is an INSERT OR IGNORE INTO Sensors(sensor_address, device_address, sensor_name, sensor_description, unit) |
| Writers.ReadingsWriter.SqlQuery | server/device_writer.py:143-147 | the reading statement is a plain INSERT INTO Readings(sensor_address, data_value) |
| Writers.Writer.SqlQuery | server/device_writer.py:28-30 | a statement ignores duplicates exactly for device and sensor records, and always inserts exactly for reading records; the base writer's is neither |
| Writers.QuotesAreNotEscaped | server/device_writer.py:63-65 | two different devices, one with a quote and comma in its address, one in its type, yield the same statement |
| MqttSub.Subscript | server/mqtt_sub.py:49-52 | `d[key]` raises TypeError exactly when d is not a dict |
| MqttSub.SubscriptFinds | server/mqtt_sub.py:49-52 | `d[key]` succeeds exactly on a dict holding the key, and then gives a value stored under that key |
| MqttSub.Iterate | server/mqtt_sub.py:55 | iteration succeeds exactly on lists, dicts and strings; it goes through a list's items, a dict's keys and a string's characters, each key or character as a string |
| MqttSub.Index | server/mqtt_sub.py:74 | a registry lookup succeeds exactly for a hashable registered key, giving its entry; an unhashable key raises TypeError |
| MqttSub.DecodeSensor | server/mqtt_sub.py:56-61 | a decoded sensor record is linked to the device record it was decoded with |
| MqttSub.DecodeSensorFields | server/mqtt_sub.py:56-61 | an entry with all four fields decodes to the record of those fields, in constructor order |
| MqttSub.DecodeSensorKinds | server/mqtt_sub.py:56-59 | an entry that is not a dict raises TypeError; a dict entry decodes exactly when it has all four fields, and otherwise raises KeyError |
| MqttSub.DecodeSensors | server/mqtt_sub.py:55-62 | a decoded list has one record per entry, each linked to the device record |
| MqttSub.DecodeSensorsOk | server/mqtt_sub.py:55-62 | the list decodes exactly when every entry decodes |
| MqttSub.DecodeSensorsEach | server/mqtt_sub.py:55-62 | the k-th record is what the k-th entry decodes to |
| MqttSub.DecodeSensorsFails | server/mqtt_sub.py:55-62 | a failure is the failure of the first entry that does not decode, every earlier entry decoding |
| MqttSub.DecodeSensorsStaysFailed | server/mqtt_sub.py:55-62 | once a prefix fails, the whole list fails the same way |
| MqttSub.DecodeDevice | server/mqtt_sub.py:47-63 | a decoded device record holds the packet's address and type, and every sensor record is linked to it |
| MqttSub.DecodeDeviceFields | server/mqtt_sub.py:49-55 | with address, type and sensor list present, iterating a non-iterable list raises its TypeError, entries that do not decode fail as their decoding does, and decodable entries give the device record and their records |
| MqttSub.SensorsNotAList | server/mqtt_sub.py:52-59 | a `sensors` field that is a non-empty dict or string raises TypeError, since its entries are strings and cannot be subscripted; an empty one gives a device with no sensors |
| MqttSub.DeviceMissingFieldIsNone | server/mqtt_sub.py:49-52 | a Device packet without its address, its type or its sensor list raises KeyError, so the packet gives None and changes no registry |
| MqttSub.ParseSensors | server/mqtt_sub.py:55-62 | the loop builds exactly the decoding of the sensor list, one record per entry in order, failing as the first failing entry does |
| MqttSub.ParseDevice | server/mqtt_sub.py:47-63 | reading the fields and then looping over the sensors gives exactly the decoding of the packet, failing as it does |
| MqttSub.DecodeReading | server/mqtt_sub.py:70-76 | a reading decodes exactly when address and value are present and the address is registered; it is bound to the registered sensor record and carries the value |
| MqttSub.DecodeReadingFields | server/mqtt_sub.py:72-75 | with address and value present, an unhashable address raises TypeError and an unregistered one raises KeyError |
| MqttSub.ReadingMissingFieldIsNone | server/mqtt_sub.py:72-73 | a SensorReading packet without its sensor address or its value raises KeyError, so the packet gives None and changes no registry |
| MqttSub.Register | server/mqtt_sub.py:93-96 | registration appends at most one record per sensor, exactly one per sensor when nothing raises, and never drops a registered address |
| MqttSub.RegisterStaysRaised | server/mqtt_sub.py:93-96 | after an unhashable address raises, later sensors change nothing |
| MqttSub.RegisterAppends | server/mqtt_sub.py:93-96 | with hashable addresses, registration does not raise and appends every sensor record, in order, whether or not it was registered |
| MqttSub.RegisterWrites | server/mqtt_sub.py:93-96 | every sensor's address is registered, and the last sensor with an address is the one registered under it |
| MqttSub.RegisterKeeps | server/mqtt_sub.py:93-96 | registration keeps the entries of addresses no sensor has and adds no other addresses |
| MqttSub.RegisterRaises | server/mqtt_sub.py:93-96 | registration raises exactly when some sensor's address cannot be hashed |
| MqttSub.Dispatch | server/mqtt_sub.py:82-105 | a packet without a readable type, a Device packet that does not decode, and a Device packet whose address cannot be hashed each give None on KeyError or raise on TypeError, with both registries unchanged; a None result leaves both registries unchanged; only a packet of type "Device" changes them; any other packet type than Device and SensorReading gives an empty list and changes nothing |
| MqttSub.DevicesNeverReplaced | server/mqtt_sub.py:90-91 | a registered device is never replaced, and a packet adds at most one device, under its own address |
| MqttSub.DispatchReading | server/mqtt_sub.py:97-99 | a SensorReading packet gives its one reading record, or None/raise as decoding fails, and changes no registry |
| MqttSub.DispatchDevice | server/mqtt_sub.py:88-96 | a decoded Device packet adds the device if new, registers its sensors and returns the device record followed by the appended sensor records, unless registration raised |
| MqttSub.DevicePacket | server/mqtt_sub.py:88-96 | with hashable addresses, the result is the device record followed by every sensor record, in order, and every sensor address is registered |
| MqttSub.UnhashableSensorRaises | server/mqtt_sub.py:90-95 | a Device packet with a sensor whose address cannot be hashed raises TypeError, after a hashable device has been added if its address was new |
| MqttSub.SensorRoundTrip | server/mqtt_sub.py:56-61 | a firmware sensor's document decodes to its address, name, description and unit |
| MqttSub.DeviceRoundTrip | server/mqtt_sub.py:47-63 | a firmware device with sensors decodes to its address and type and, in order, each of its sensors |
| MqttSub.DeviceWithoutSensorsRaises | server/mqtt_sub.py:52-55 | a firmware device without sensors (null sensors) makes decoding raise TypeError and leaves the registries unchanged |
| MqttSub.SensorDocument | lib/device/device.cc:81-91 | the server reads back from a sensor's document the address, name, description and unit it was built with |
| MqttSub.DeviceDocument | lib/device/device.cc:44-57 | the server reads back from a device's document the packet type "Device", its address, its type and its sensors' documents |
| MqttSub.ReadingDocument | lib/device/device.cc:104-111 | the server reads back from a reading's document the packet type "SensorReading", the sensor address and the value |
| MqttSub.DevicePacketDecodes | server/mqtt_sub.py:47-63 | a firmware device packet with sensors is of type "Device" and decodes, with a hashable address and hashable sensor addresses |
| MqttSub.DevicePacketReturns | server/mqtt_sub.py:88-96 | a firmware device packet with sensors returns the device record, then each sensor's record in order |
| MqttSub.DevicePacketRegisters | server/mqtt_sub.py:88-96 | a firmware device packet with sensors adds the device only if its address is new, and registers every sensor's address |
| MqttSub.ReadingRoundTrip | server/mqtt_sub.py:97-99 | a firmware reading for a registered sensor gives one reading record bound to that sensor's record, with the value, and changes nothing |
| MqttSub.UnregisteredReadingIsNone | server/mqtt_sub.py:74 | a reading for an unregistered sensor gives None and changes nothing |
| MqttSub.SensorDocumentIsNotAPacket | server/mqtt_sub.py:86 | a sensor's own document has no packet type and gives None |
| MqttSub.DeviceThenReading | server/mqtt_sub.py:88-99 | after a device's packet, each of its sensors' addresses is registered, and a reading from that sensor gives one reading record bound to the record registered under the address, changing nothing |
| MqttSub.Subscriber.constructor | server/mqtt_sub.py:35-40 | both registries start empty |
| MqttSub.Subscriber.ParseJson | server/mqtt_sub.py:82-105 | result and new registries are exactly those of the dispatch function |
| MqttSub.Subscriber.RegisterDevice | server/mqtt_sub.py:90-96 | adds the device if its address is new, then writes and appends every sensor in turn, stopping at an unhashable address |

## Left out

- Random numbers: the normal distribution (mean 0, deviation 0.005) and
  its generator are not modelled. `Iteration` takes the sample as a
  parameter, and the bounds are proved for samples in [-1, 1].
- Floating point: prices and reading values are reals, not IEEE doubles.
- Walk.RandomWalk.Iteration: does not model rounding in `price + random`,
  because the model works on reals.
- I/O on the board: Wi-Fi, the MQTT client and publishing, the serial
  port, the LED and the `millis()` timers of `setup` and `loop`. The MAC
  address is a parameter.
- JSON text: `serializeJsonPretty`, the 1024-byte buffer and
  `json.loads` are not modelled. A document arrives as it was built, and
  JSON has no booleans here because the firmware never sends them.
- Python's `str()` of values that are not strings (numbers, None, lists,
  dicts) is a parameter (`show`) of the SQL text functions.
- Writer identity: writers are values, so two writer objects with equal
  fields are not told apart, and aliasing between the registries and the
  returned list is not modelled.
- `Writer.insert` and the SQLite database (`server/db.py`), `on_message`,
  `extract_from_json`, `connect_mqtt` and `main`, and the plotting script
  are not part of this model.
- The destructors and `Parser` base class are empty and not modelled.
- Console output: the `print("Invalid Packet")` that `parse_json` writes
  for an unknown packet type and when it catches a KeyError
  (server/mqtt_sub.py:101, 105) is not modelled; only the empty list and
  the None it returns are.

=== FILE: device.dfy ===
/**
 * The firmware's entities and the documents they render to.
 *
 * A Sensor and a SensorReading never change after construction and are
 * values; a Device owns a sensor list that only grows, so it is an object.
 * Each entity renders itself to a document (`Parse`) and reports its
 * address (`GetAddress`).
 */
module DeviceModel {
  import opened Documents

  /** A sensor; the constructor takes the address last. */
  datatype Sensor = Sensor(sensorName: string, sensorDescription: string, unit: string, sensorAddress: string)
  {
    /** The address given at construction. */
    function GetAddress(): (a: string)
      ensures a == sensorAddress
    {
      sensorAddress
    }

    /** The sensor's document: exactly these four members, in this order, and no packet type. */
    function Parse(): (doc: Json)
      ensures doc == JObject([
                        ("sensor_address", JString(sensorAddress)),
                        ("sensor_name", JString(sensorName)),
                        ("sensor_description", JString(sensorDescription)),
                        ("unit", JString(unit))])
      ensures !HasMember(doc.members, "packet_type")
    {
      var doc := Set(JNull, "sensor_address", JString(sensorAddress));
      var doc := Set(doc, "sensor_name", JString(sensorName));
      var doc := Set(doc, "sensor_description", JString(sensorDescription));
      Set(doc, "unit", JString(unit))
    }
  }

  /** One measurement; the constructor takes the value first, then the sensor's address. */
  datatype SensorReading = SensorReading(dataValue: real, sensorAddress: string)
  {
    /** The address of the sensor the reading is for, as given at construction. */
    function GetAddress(): (a: string)
      ensures a == sensorAddress
    {
      sensorAddress
    }

    /** The reading's document. */
    function Parse(): (doc: Json)
      ensures doc == JObject([
                        ("packet_type", JString("SensorReading")),
                        ("sensor_address", JString(sensorAddress)),
                        ("data_value", JNumber(dataValue))])
    {
      var doc := Set(JNull, "packet_type", JString("SensorReading"));
      var doc := Set(doc, "sensor_address", JString(sensorAddress));
      Set(doc, "data_value", JNumber(dataValue))
    }
  }

  /**
   * The document the sensors add up to in Device::parse: each sensor's
   * document is added in turn to a document that starts out null, so with
   * no sensors it stays null rather than becoming an empty array.
   */
  function SensorDocs(sensors: seq<Sensor>): (doc: Json)
    ensures doc == JNull <==> sensors == []
    ensures sensors != [] ==> doc.JArray? && |doc.items| == |sensors|
    ensures sensors != [] ==> forall i :: 0 <= i < |sensors| ==> doc.items[i] == sensors[i].Parse()
  {
    if sensors == [] then JNull
    else Add(SensorDocs(sensors[..|sensors| - 1]), sensors[|sensors| - 1].Parse())
  }

  /**
   * Adding one sensor adds its document at the end of the array (which
   * comes into being when the list was empty); earlier entries stay.
   */
  lemma SensorDocsAppend(sensors: seq<Sensor>, s: Sensor)
    ensures SensorDocs(sensors + [s]) == JArray((if sensors == [] then [] else SensorDocs(sensors).items) + [s.Parse()])
  {
    var all := sensors + [s];
    assert all[..|all| - 1] == sensors;
    assert all[|all| - 1] == s;
  }

  class Device {
    const deviceAddress: string
    const deviceName: string
    var sensorVector: seq<Sensor>

    /** A device with no sensors yet. */
    constructor (macAddress: string, deviceType: string)
      ensures deviceAddress == macAddress && deviceName == deviceType
      ensures sensorVector == []
    {
      deviceAddress := macAddress;
      deviceName := deviceType;
      sensorVector := [];
    }

    /** A device holding the given sensors, as given. */
    constructor WithSensors(macAddress: string, deviceType: string, sensors: seq<Sensor>)
      ensures deviceAddress == macAddress && deviceName == deviceType
      ensures sensorVector == sensors
    {
      deviceAddress := macAddress;
      deviceName := deviceType;
      sensorVector := sensors;
    }

    /** The MAC address given at construction; it is a constant, so no call changes it. */
    function GetAddress(): (a: string)
      ensures a == deviceAddress
    {
      deviceAddress
    }

    /**
     * The device's identification document: the packet type, the address,
     * the device type and the sensors' documents, in that order.
     */
    function Parse(): (doc: Json)
      reads this
      ensures doc == JObject([
                        ("packet_type", JString("Device")),
                        ("device_address", JString(deviceAddress)),
                        ("device_type", JString(deviceName)),
                        ("sensors", SensorDocs(sensorVector))])
    {
      var doc := Set(JNull, "packet_type", JString("Device"));
      var doc := Set(doc, "device_address", JString(deviceAddress));
      var doc := Set(doc, "device_type", JString(deviceName));
      Set(doc, "sensors", SensorDocs(sensorVector))
    }

    /** Appends a sensor; nothing is removed or reordered. */
    method AddSensor(s: Sensor)
      modifies this
      ensures sensorVector == old(sensorVector) + [s]
    {
      sensorVector := sensorVector + [s];
    }
  }
}

=== FILE: documents.dfy ===
/**
 * Structured documents exchanged between the firmware and the server.
 *
 * The firmware builds them with ArduinoJson (`doc[key] = v`, `doc.add(v)`);
 * the server reads them back as the Python dictionaries that `json.loads`
 * produces. The JSON text in between is not modelled: a document arrives as
 * it was built.
 */
module Documents {

  datatype Option<+T> = None | Some(value: T)

  /** A JSON value; object members keep the order in which they were added. */
  datatype Json =
    | JNull
    | JNumber(num: real)
    | JString(str: string)
    | JArray(items: seq<Json>)
    | JObject(members: seq<(string, Json)>)

  /** Some member of `members` is named `key`. */
  predicate HasMember(members: seq<(string, Json)>, key: string)
  {
    exists i :: 0 <= i < |members| && members[i].0 == key
  }

  /**
   * The members after ArduinoJson's `obj[key] = v`: the first member named
   * `key` gets the new value in place; without one, a member is appended.
   */
  function Assign(members: seq<(string, Json)>, key: string, v: Json): (r: seq<(string, Json)>)
    ensures !HasMember(members, key) ==> r == members + [(key, v)]
    ensures HasMember(members, key) ==> |r| == |members| && HasMember(r, key)
  {
    if members == [] then [(key, v)]
    else if members[0].0 == key then
      HasMemberCons((key, v), members[1..], key);
      [(key, v)] + members[1..]
    else
      var rest := Assign(members[1..], key, v);
      HasMemberCons(members[0], members[1..], key);
      HasMemberCons(members[0], rest, key);
      assert [members[0]] + members[1..] == members;
      [members[0]] + rest
  }

  /** A key is among `[m] + rest` exactly when it is `m`'s or among `rest`. */
  lemma HasMemberCons(m: (string, Json), rest: seq<(string, Json)>, key: string)
    ensures HasMember([m] + rest, key) <==> m.0 == key || HasMember(rest, key)
  {
    var all := [m] + rest;
    if HasMember(rest, key) {
      var i :| 0 <= i < |rest| && rest[i].0 == key;
      assert all[i + 1].0 == key;
    }
    if HasMember(all, key) && m.0 != key {
      var i :| 0 <= i < |all| && all[i].0 == key;
      assert rest[i - 1].0 == key;
    }
    assert all[0] == m;
  }

  /**
   * On an object that already has `key`, the first member with that key
   * gets the new value where it stands, and every other member stays.
   */
  lemma {:induction false} AssignInPlace(members: seq<(string, Json)>, key: string, v: Json, i: nat)
    requires i < |members| && members[i].0 == key
    requires forall j :: 0 <= j < i ==> members[j].0 != key
    ensures Assign(members, key, v) == members[i := (key, v)]
  {
    if i > 0 {
      AssignInPlace(members[1..], key, v, i - 1);
      assert members[1..][i - 1 := (key, v)] == members[i := (key, v)][1..];
      assert members[i := (key, v)] == [members[0]] + members[i := (key, v)][1..];
    }
  }

  /**
   * ArduinoJson's `doc[key] = v`: a null document becomes an object holding
   * just that member; an object is updated as by Assign; a document of any
   * other kind is left as it is.
   */
  function Set(doc: Json, key: string, v: Json): (r: Json)
    ensures doc.JNull? ==> r == JObject([(key, v)])
    ensures doc.JObject? && !HasMember(doc.members, key) ==> r == JObject(doc.members + [(key, v)])
  {
    match doc
    case JNull => JObject([(key, v)])
    case JObject(members) => JObject(Assign(members, key, v))
    case _ => doc
  }

  /**
   * ArduinoJson's `doc.add(v)`: a null document becomes an array holding
   * `v`; an array gets `v` at its end; any other document is left as it is.
   */
  function Add(doc: Json, v: Json): (r: Json)
    ensures doc.JNull? ==> r == JArray([v])
    ensures doc.JArray? ==> r == JArray(doc.items + [v])
    ensures !doc.JNull? && !doc.JArray? ==> r == doc
  {
    match doc
    case JNull => JArray([v])
    case JArray(items) => JArray(items + [v])
    case _ => doc
  }

  /**
   * What `dict[key]` gives on the dictionary `json.loads` builds from these
   * members: when a key repeats, the last value wins.
   */
  function Lookup(members: seq<(string, Json)>, key: string): (r: Option<Json>)
    ensures r.Some? ==> (key, r.value) in members
  {
    if members == [] then None
    else if members[|members| - 1].0 == key then Some(members[|members| - 1].1)
    else Lookup(members[..|members| - 1], key)
  }

  /** A lookup fails exactly when no member has the key; otherwise it finds a member with that key. */
  lemma {:induction false} LookupFinds(members: seq<(string, Json)>, key: string)
    ensures Lookup(members, key).None? <==> !HasMember(members, key)
    ensures Lookup(members, key).Some? ==>
              exists i :: 0 <= i < |members| && members[i] == (key, Lookup(members, key).value)
  {
    if members != [] {
      var last := |members| - 1;
      if members[last].0 == key {
        assert members[last] == (key, Lookup(members, key).value);
      } else {
        var init := members[..last];
        LookupFinds(init, key);
        if HasMember(members, key) {
          var i :| 0 <= i < |members| && members[i].0 == key;
          assert init[i].0 == key;
        }
        if Lookup(init, key).Some? {
          var i :| 0 <= i < |init| && init[i] == (key, Lookup(init, key).value);
          assert members[i] == init[i];
        }
      }
    }
  }

  /** A member with no later namesake is the one a lookup of its key finds. */
  lemma {:induction false} LookupLast(members: seq<(string, Json)>, i: nat)
    requires i < |members|
    requires forall j :: i < j < |members| ==> members[j].0 != members[i].0
    ensures Lookup(members, members[i].0) == Some(members[i].1)
  {
    if i < |members| - 1 {
      var init := members[..|members| - 1];
      assert init[i] == members[i];
      LookupLast(init, i);
    }
  }

  /**
   * The keys of the dictionary `json.loads` builds from these members, in
   * Python's iteration order: each key once, where it first appeared.
   */
  function FirstKeys(members: seq<(string, Json)>): (keys: seq<string>)
    ensures |keys| <= |members|
    ensures |keys| == 0 <==> |members| == 0
    ensures forall k :: k in keys <==> HasMember(members, k)
    ensures forall i, j :: 0 <= i < j < |keys| ==> keys[i] != keys[j]
  {
    if members == [] then []
    else
      var init := FirstKeys(members[..|members| - 1]);
      var key := members[|members| - 1].0;
      if key in init then init else init + [key]
  }
}

=== FILE: mqtt_sub.dfy ===
/**
 * The server's packet decoding and its two registries.
 *
 * A packet is the dictionary `json.loads` made of a message. Decoding reads
 * it with Python's own rules: a missing key raises KeyError, which
 * `parse_json` catches and turns into a None result; subscripting or
 * iterating a value of the wrong kind, or using a list or a dict as a
 * registry key, raises TypeError, which nothing catches. The registries are
 * module-level dictionaries, here the fields of a Subscriber.
 */
module MqttSub {
  import opened Documents
  import opened Writers
  import DeviceModel

  /** The two exceptions decoding can raise. */
  datatype Failure = KeyError | TypeError

  /** A decoded value, or the exception decoding raised. */
  datatype Decoded<+T> = Ok(value: T) | Err(failure: Failure)
  {
    predicate IsFailure()
    {
      Err?
    }

    function PropagateFailure<U>(): Decoded<U>
      requires Err?
    {
      Err(failure)
    }

    function Extract(): T
      requires Ok?
    {
      value
    }
  }

  /**
   * Python's `d[key]` for a string key: a dict yields the key's value or
   * raises KeyError; a value of any other kind raises TypeError.
   */
  function Subscript(d: Json, key: string): (r: Decoded<Json>)
    ensures r == Err(TypeError) <==> !d.JObject?
  {
    match d
    case JObject(members) =>
      (match Lookup(members, key)
       case Some(v) => Ok(v)
       case None => Err(KeyError))
    case _ => Err(TypeError)
  }

  /** `d[key]` succeeds exactly on a dict holding the key, and gives a value stored under it. */
  lemma SubscriptFinds(d: Json, key: string)
    ensures Subscript(d, key).Ok? <==> d.JObject? && HasMember(d.members, key)
    ensures Subscript(d, key).Ok? ==>
              exists i :: 0 <= i < |d.members| && d.members[i] == (key, Subscript(d, key).value)
  {
    if d.JObject? {
      LookupFinds(d.members, key);
    }
  }

  /**
   * What `for x in v` goes through: a list's items, a dict's keys, a
   * string's characters; None and numbers raise TypeError.
   */
  function Iterate(v: Json): (r: Decoded<seq<Json>>)
    ensures r.Ok? <==> v.JArray? || v.JObject? || v.JString?
    ensures v.JArray? ==> r == Ok(v.items)
    ensures v.JObject? ==> && |r.value| == |FirstKeys(v.members)|
                           && forall k :: 0 <= k < |r.value| ==> r.value[k] == JString(FirstKeys(v.members)[k])
    ensures v.JString? ==> && |r.value| == |v.str|
                           && forall k :: 0 <= k < |r.value| ==> r.value[k] == JString([v.str[k]])
  {
    match v
    case JArray(items) => Ok(items)
    case JObject(members) =>
      var keys := FirstKeys(members);
      Ok(seq(|keys|, k requires 0 <= k < |keys| => JString(keys[k])))
    case JString(s) => Ok(seq(|s|, k requires 0 <= k < |s| => JString([s[k]])))
    case _ => Err(TypeError)
  }

  /** Python can hash None, numbers and strings; a list or a dict as a key raises TypeError. */
  predicate Hashable(v: Json)
  {
    !v.JArray? && !v.JObject?
  }

  /** Python's `m[key]` on a registry. */
  function Index<T>(m: map<Json, T>, key: Json): (r: Decoded<T>)
    ensures r.Ok? <==> Hashable(key) && key in m
    ensures r.Ok? ==> r.value == m[key]
    ensures r == Err(TypeError) <==> !Hashable(key)
  {
    if !Hashable(key) then Err(TypeError)
    else if key in m then Ok(m[key])
    else Err(KeyError)
  }

  // ---------------------------------------------------------------------
  // Decoding a Device packet.
  // ---------------------------------------------------------------------

  /** One entry of a Device packet's `sensors` list, linked to `dev`. */
  function DecodeSensor(entry: Json, dev: DeviceWriter): (r: Decoded<SensorWriter>)
    ensures r.Ok? ==> r.value.device == dev
  {
    var address :- Subscript(entry, "sensor_address");
    var name :- Subscript(entry, "sensor_name");
    var description :- Subscript(entry, "sensor_description");
    var unit :- Subscript(entry, "unit");
    Ok(SensorWriter(address, dev, name, description, unit))
  }

  /** The entries decoded in order; the first entry that fails decides the exception. */
  function DecodeSensors(entries: seq<Json>, dev: DeviceWriter): (r: Decoded<seq<SensorWriter>>)
    ensures r.Ok? ==> |r.value| == |entries|
    ensures r.Ok? ==> forall k :: 0 <= k < |r.value| ==> r.value[k].device == dev
  {
    if entries == [] then Ok([])
    else
      var sensorObjects :- DecodeSensors(entries[..|entries| - 1], dev);
      var sensorObject :- DecodeSensor(entries[|entries| - 1], dev);
      Ok(sensorObjects + [sensorObject])
  }

  /** The list decodes exactly when every entry does. */
  lemma {:induction false} DecodeSensorsOk(entries: seq<Json>, dev: DeviceWriter)
    ensures DecodeSensors(entries, dev).Ok? <==> forall k :: 0 <= k < |entries| ==> DecodeSensor(entries[k], dev).Ok?
  {
    if entries != [] {
      var init := entries[..|entries| - 1];
      DecodeSensorsOk(init, dev);
      assert forall k :: 0 <= k < |init| ==> entries[k] == init[k];
    }
  }

  /** A decoded list holds, in order, what each entry decodes to. */
  lemma {:induction false} DecodeSensorsEach(entries: seq<Json>, dev: DeviceWriter)
    requires DecodeSensors(entries, dev).Ok?
    ensures forall k :: 0 <= k < |entries| ==> DecodeSensor(entries[k], dev) == Ok(DecodeSensors(entries, dev).value[k])
  {
    if entries != [] {
      var init := entries[..|entries| - 1];
      var last := entries[|entries| - 1];
      var sensorObjects := DecodeSensors(init, dev).value;
      var sensorObject := DecodeSensor(last, dev).value;
      assert DecodeSensors(entries, dev).value == sensorObjects + [sensorObject];
      DecodeSensorsEach(init, dev);
      forall k | 0 <= k < |entries|
        ensures DecodeSensor(entries[k], dev) == Ok((sensorObjects + [sensorObject])[k])
      {
        if k < |init| {
          assert entries[k] == init[k];
        }
      }
    }
  }

  /** Once a prefix of the list fails, the whole list fails the same way. */
  lemma {:induction false} DecodeSensorsStaysFailed(entries: seq<Json>, dev: DeviceWriter, i: nat)
    requires i <= |entries|
    requires DecodeSensors(entries[..i], dev).Err?
    ensures DecodeSensors(entries, dev) == DecodeSensors(entries[..i], dev)
    decreases |entries| - i
  {
    if i < |entries| {
      assert entries[..i + 1][..i] == entries[..i];
      DecodeSensorsStaysFailed(entries, dev, i + 1);
    } else {
      assert entries[..i] == entries;
    }
  }

  /** A failure is the failure of the first entry that does not decode. */
  lemma {:induction false} DecodeSensorsFails(entries: seq<Json>, dev: DeviceWriter)
    ensures DecodeSensors(entries, dev).Err? ==> FirstFailure(entries, dev, DecodeSensors(entries, dev).failure)
  {
    if entries != [] && DecodeSensors(entries, dev).Err? {
      var init := entries[..|entries| - 1];
      var f := DecodeSensors(entries, dev).failure;
      assert forall j :: 0 <= j < |init| ==> entries[j] == init[j];
      if DecodeSensors(init, dev).Err? {
        DecodeSensorsFails(init, dev);
        var k :| 0 <= k < |init| && DecodeSensor(init[k], dev) == Err(f)
                 && forall j :: 0 <= j < k ==> DecodeSensor(init[j], dev).Ok?;
        assert DecodeSensor(entries[k], dev) == Err(f);
      } else {
        DecodeSensorsOk(init, dev);
        assert DecodeSensor(entries[|init|], dev) == Err(f);
      }
    }
  }

  /** The entry at some index fails with `f`, and every entry before it decodes. */
  predicate FirstFailure(entries: seq<Json>, dev: DeviceWriter, f: Failure)
  {
    exists k :: 0 <= k < |entries| && DecodeSensor(entries[k], dev) == Err(f)
                && forall j :: 0 <= j < k ==> DecodeSensor(entries[j], dev).Ok?
  }

  /**
   * A Device packet decoded as `json_parse_device` does it: the device
   * record and, in the order of the packet's list, one sensor record per
   * entry, each linked to that device record.
   */
  function DecodeDevice(d: Json): (r: Decoded<(DeviceWriter, seq<SensorWriter>)>)
    ensures r.Ok? ==> && Subscript(d, "device_address") == Ok(r.value.0.deviceAddress)
                      && Subscript(d, "device_type") == Ok(r.value.0.deviceType)
    ensures r.Ok? ==> forall k :: 0 <= k < |r.value.1| ==> r.value.1[k].device == r.value.0
  {
    var address :- Subscript(d, "device_address");
    var deviceType :- Subscript(d, "device_type");
    var dev := DeviceWriter(address, deviceType);
    var sensorList :- Subscript(d, "sensors");
    var entries :- Iterate(sensorList);
    var sensorObjects :- DecodeSensors(entries, dev);
    Ok((dev, sensorObjects))
  }

  /** The `for sensor in sensors_dict` loop of `json_parse_device`: one sensor record per entry, in order. */
  method ParseSensors(entries: seq<Json>, dev: DeviceWriter) returns (r: Decoded<seq<SensorWriter>>)
    ensures r == DecodeSensors(entries, dev)
  {
    var sensorObjects: seq<SensorWriter> := [];
    var i := 0;
    while i < |entries|
      invariant 0 <= i <= |entries|
      invariant DecodeSensors(entries[..i], dev) == Ok(sensorObjects)
    {
      assert entries[..i + 1][..i] == entries[..i];
      var sensorObject := DecodeSensor(entries[i], dev);
      if sensorObject.Err? {
        DecodeSensorsStaysFailed(entries, dev, i + 1);
        return Err(sensorObject.failure);
      }
      sensorObjects := sensorObjects + [sensorObject.value];
      i := i + 1;
    }
    assert entries[..i] == entries;
    return Ok(sensorObjects);
  }

  /** `json_parse_device`: reads the fields, then builds the sensor records one entry at a time. */
  method ParseDevice(d: Json) returns (r: Decoded<(DeviceWriter, seq<SensorWriter>)>)
    ensures r == DecodeDevice(d)
  {
    var address :- Subscript(d, "device_address");
    var deviceType :- Subscript(d, "device_type");
    var dev := DeviceWriter(address, deviceType);
    var sensorList :- Subscript(d, "sensors");
    var entries :- Iterate(sensorList);
    var sensorObjects :- ParseSensors(entries, dev);
    return Ok((dev, sensorObjects));
  }

  // ---------------------------------------------------------------------
  // Decoding a SensorReading packet.
  // ---------------------------------------------------------------------

  /**
   * `json_parse_reading`: a reading record bound to the registered sensor
   * the packet names and carrying its value; KeyError when a field is
   * missing or the sensor is not registered.
   */
  function DecodeReading(sensors: map<Json, SensorWriter>, d: Json): (r: Decoded<ReadingsWriter>)
    ensures r.Ok? <==> && Subscript(d, "sensor_address").Ok?
                       && Subscript(d, "data_value").Ok?
                       && Hashable(Subscript(d, "sensor_address").value)
                       && Subscript(d, "sensor_address").value in sensors
    ensures r.Ok? ==> r.value == ReadingsWriter(sensors[Subscript(d, "sensor_address").value],
                                                Subscript(d, "data_value").value)
  {
    var address :- Subscript(d, "sensor_address");
    var value :- Subscript(d, "data_value");
    var sensor :- Index(sensors, address);
    Ok(sensor.CreateReadings(value))
  }

  // ---------------------------------------------------------------------
  // parse_json and the registries.
  // ---------------------------------------------------------------------

  /** The `devices` and `sensors` dictionaries, keyed by address. */
  datatype Registries = Registries(devices: map<Json, DeviceWriter>, sensors: map<Json, SensorWriter>)

  /** What `parse_json` does: return a list, return None (after a KeyError), or raise TypeError. */
  datatype ParseResult = Returned(objects: seq<Writer>) | ReturnedNone | Raised

  /** A KeyError is caught and gives None; a TypeError escapes. */
  function Outcome(f: Failure): ParseResult
  {
    if f == KeyError then ReturnedNone else Raised
  }

  /** The sensor registry after registering sensors, the records appended, and whether it raised. */
  datatype Registration = Registration(sensors: map<Json, SensorWriter>, appended: seq<Writer>, raised: bool)

  /**
   * Registering decoded sensors in order. The source tests the bound method
   * `sensor_object.address`, not its value, and a method is never a key of
   * the registry, so every sensor overwrites the entry for its address and
   * is appended; the first unhashable address raises TypeError, keeping the
   * entries written before it.
   */
  function Register(sensors: map<Json, SensorWriter>, objects: seq<SensorWriter>): (r: Registration)
    ensures |r.appended| <= |objects|
    ensures !r.raised ==> |r.appended| == |objects|
    ensures sensors.Keys <= r.sensors.Keys
  {
    if objects == [] then Registration(sensors, [], false)
    else
      var r := Register(sensors, objects[..|objects| - 1]);
      var s := objects[|objects| - 1];
      if r.raised then r
      else if !Hashable(s.Address()) then Registration(r.sensors, r.appended, true)
      else Registration(r.sensors[s.Address() := s], r.appended + [SensorRecord(s)], false)
  }

  /** `parse_json` on packet `d` with registries `reg`: its result and the registries afterwards. */
  function Dispatch(reg: Registries, d: Json): (r: (ParseResult, Registries))
    // A None result leaves both registries as they were.
    ensures r.0 == ReturnedNone ==> r.1 == reg
    // Only a Device packet changes the registries.
    ensures r.1 != reg ==> Subscript(d, "packet_type") == Ok(JString("Device"))
    // Any packet type but Device and SensorReading gives an empty list and changes nothing.
    ensures Subscript(d, "packet_type").Ok? && Subscript(d, "packet_type").value !in {JString("Device"), JString("SensorReading")} ==>
              r == (Returned([]), reg)
    // A packet without a readable type: KeyError gives None, TypeError escapes; nothing changes.
    ensures Subscript(d, "packet_type").Err? ==> r == (Outcome(Subscript(d, "packet_type").failure), reg)
    // A Device packet that does not decode fails the same way, before any registry write.
    ensures Subscript(d, "packet_type") == Ok(JString("Device")) && DecodeDevice(d).Err? ==>
              r == (Outcome(DecodeDevice(d).failure), reg)
    // A Device packet whose address cannot be hashed raises before any registry write.
    ensures && Subscript(d, "packet_type") == Ok(JString("Device"))
            && DecodeDevice(d).Ok?
            && !Hashable(DecodeDevice(d).value.0.deviceAddress)
            ==> r == (Raised, reg)
  {
    match Subscript(d, "packet_type")
    case Err(f) => (Outcome(f), reg)
    case Ok(packetType) =>
      if packetType == JString("Device") then
        match DecodeDevice(d)
        case Err(f) => (Outcome(f), reg)
        case Ok(decoded) =>
          var dev := decoded.0;
          if !Hashable(dev.Address()) then (Raised, reg)
          else
            var devices := if dev.Address() in reg.devices then reg.devices else reg.devices[dev.Address() := dev];
            var r := Register(reg.sensors, decoded.1);
            (if r.raised then Raised else Returned([DeviceRecord(dev)] + r.appended), Registries(devices, r.sensors))
      else if packetType == JString("SensorReading") then
        match DecodeReading(reg.sensors, d)
        case Err(f) => (Outcome(f), reg)
        case Ok(reading) => (Returned([ReadingRecord(reading)]), reg)
      else (Returned([]), reg)
  }

  /** Some sensor in `objects` has address `a`. */
  predicate Registers(objects: seq<SensorWriter>, a: Json)
  {
    exists k :: 0 <= k < |objects| && objects[k].sensorAddress == a
  }

  /** No sensor after the one at `k` has its address. */
  predicate LastWithAddress(objects: seq<SensorWriter>, k: nat)
    requires k < |objects|
  {
    forall j :: k < j < |objects| ==> objects[j].sensorAddress != objects[k].sensorAddress
  }

  /** Once registration has raised, later sensors change nothing. */
  lemma {:induction false} RegisterStaysRaised(sensors: map<Json, SensorWriter>, objects: seq<SensorWriter>, i: nat)
    requires i <= |objects|
    requires Register(sensors, objects[..i]).raised
    ensures Register(sensors, objects) == Register(sensors, objects[..i])
    decreases |objects| - i
  {
    if i < |objects| {
      assert objects[..i + 1][..i] == objects[..i];
      RegisterStaysRaised(sensors, objects, i + 1);
    } else {
      assert objects[..i] == objects;
    }
  }

  /** With hashable addresses, registration never raises and appends every sensor, in order. */
  lemma {:induction false} RegisterAppends(sensors: map<Json, SensorWriter>, objects: seq<SensorWriter>)
    requires forall k :: 0 <= k < |objects| ==> Hashable(objects[k].sensorAddress)
    ensures !Register(sensors, objects).raised
    ensures |Register(sensors, objects).appended| == |objects|
    ensures forall k :: 0 <= k < |objects| ==> Register(sensors, objects).appended[k] == SensorRecord(objects[k])
  {
    if objects != [] {
      var init := objects[..|objects| - 1];
      RegisterAppends(sensors, init);
      var appended := Register(sensors, init).appended;
      assert Register(sensors, objects).appended == appended + [SensorRecord(objects[|init|])];
      assert forall k :: 0 <= k < |init| ==> objects[k] == init[k];
    }
  }

  /**
   * With hashable addresses, every sensor's address is registered, and a
   * sensor with no later namesake is the one registered under its address.
   */
  lemma {:induction false} RegisterWrites(sensors: map<Json, SensorWriter>, objects: seq<SensorWriter>)
    requires forall k :: 0 <= k < |objects| ==> Hashable(objects[k].sensorAddress)
    ensures forall k :: 0 <= k < |objects| ==> objects[k].sensorAddress in Register(sensors, objects).sensors
    ensures forall k :: 0 <= k < |objects| && LastWithAddress(objects, k) ==>
              Register(sensors, objects).sensors[objects[k].sensorAddress] == objects[k]
  {
    if objects != [] {
      var init := objects[..|objects| - 1];
      var s := objects[|init|];
      RegisterAppends(sensors, init);
      RegisterWrites(sensors, init);
      var before := Register(sensors, init).sensors;
      var after := Register(sensors, objects).sensors;
      assert after == before[s.sensorAddress := s];
      forall k | 0 <= k < |objects|
        ensures objects[k].sensorAddress in after
        ensures LastWithAddress(objects, k) ==> after[objects[k].sensorAddress] == objects[k]
      {
        if k < |init| {
          assert objects[k] == init[k];
          if LastWithAddress(objects, k) {
            assert LastWithAddress(init, k);
            assert objects[k].sensorAddress != s.sensorAddress;
          }
        }
      }
    }
  }

  /**
   * Registration, whether or not it raises, keeps the entry of every
   * address none of the sensors has, and adds no other addresses.
   */
  lemma {:induction false} RegisterKeeps(sensors: map<Json, SensorWriter>, objects: seq<SensorWriter>)
    ensures forall a :: a in sensors && !Registers(objects, a) ==>
              a in Register(sensors, objects).sensors && Register(sensors, objects).sensors[a] == sensors[a]
    ensures forall a :: a in Register(sensors, objects).sensors ==> a in sensors || Registers(objects, a)
  {
    if objects != [] {
      var init := objects[..|objects| - 1];
      RegisterKeeps(sensors, init);
      forall a | Registers(init, a)
        ensures Registers(objects, a)
      {
        var k :| 0 <= k < |init| && init[k].sensorAddress == a;
        assert objects[k].sensorAddress == a;
      }
      assert Registers(objects, objects[|init|].sensorAddress);
    }
  }

  /** Registration raises exactly when some sensor's address cannot be hashed. */
  lemma {:induction false} RegisterRaises(sensors: map<Json, SensorWriter>, objects: seq<SensorWriter>)
    ensures Register(sensors, objects).raised <==> exists k :: 0 <= k < |objects| && !Hashable(objects[k].sensorAddress)
  {
    if objects != [] {
      var init := objects[..|objects| - 1];
      RegisterRaises(sensors, init);
      if exists k :: 0 <= k < |init| && !Hashable(init[k].sensorAddress) {
        var k :| 0 <= k < |init| && !Hashable(init[k].sensorAddress);
        assert objects[k] == init[k];
      }
      if exists k :: 0 <= k < |objects| && !Hashable(objects[k].sensorAddress) {
        var k :| 0 <= k < |objects| && !Hashable(objects[k].sensorAddress);
        if k < |init| {
          assert init[k] == objects[k];
        }
      }
    }
  }

  /**
   * A device entry, once registered, is never replaced, and a packet adds
   * at most one device: the one it describes, under its own address.
   */
  lemma DevicesNeverReplaced(reg: Registries, d: Json)
    ensures var after := Dispatch(reg, d).1;
      && (forall a :: a in reg.devices ==> a in after.devices && after.devices[a] == reg.devices[a])
      && (forall a :: a in after.devices && a !in reg.devices ==> after.devices[a].Address() == a)
      && (forall a, b :: a in after.devices && a !in reg.devices && b in after.devices && b !in reg.devices ==> a == b)
  {
  }

  // ---------------------------------------------------------------------
  // Firmware documents read by the server.
  // ---------------------------------------------------------------------

  /** Decoding a sensor entry whose four fields are present. */
  lemma DecodeSensorFields(entry: Json, dev: DeviceWriter, address: Json, name: Json, description: Json, unit: Json)
    requires Subscript(entry, "sensor_address") == Ok(address)
    requires Subscript(entry, "sensor_name") == Ok(name)
    requires Subscript(entry, "sensor_description") == Ok(description)
    requires Subscript(entry, "unit") == Ok(unit)
    ensures DecodeSensor(entry, dev) == Ok(SensorWriter(address, dev, name, description, unit))
  {
  }

  /**
   * A sensor entry that is not a dict raises TypeError; a dict decodes
   * exactly when it holds all four fields, and otherwise raises KeyError.
   */
  lemma DecodeSensorKinds(entry: Json, dev: DeviceWriter)
    ensures !entry.JObject? ==> DecodeSensor(entry, dev) == Err(TypeError)
    ensures entry.JObject? && DecodeSensor(entry, dev).Err? ==> DecodeSensor(entry, dev).failure == KeyError
    ensures entry.JObject? ==>
              (DecodeSensor(entry, dev).Ok? <==> && HasMember(entry.members, "sensor_address")
                                                 && HasMember(entry.members, "sensor_name")
                                                 && HasMember(entry.members, "sensor_description")
                                                 && HasMember(entry.members, "unit"))
  {
    SubscriptFinds(entry, "sensor_address");
    SubscriptFinds(entry, "sensor_name");
    SubscriptFinds(entry, "sensor_description");
    SubscriptFinds(entry, "unit");
  }

  /** Decoding a device packet whose address, type and sensor list are present. */
  lemma DecodeDeviceFields(d: Json, address: Json, deviceType: Json, sensorList: Json)
    requires Subscript(d, "device_address") == Ok(address)
    requires Subscript(d, "device_type") == Ok(deviceType)
    requires Subscript(d, "sensors") == Ok(sensorList)
    ensures Iterate(sensorList).Err? ==> DecodeDevice(d) == Err(Iterate(sensorList).failure)
    ensures Iterate(sensorList).Ok? && DecodeSensors(Iterate(sensorList).value, DeviceWriter(address, deviceType)).Ok? ==>
              DecodeDevice(d) == Ok((DeviceWriter(address, deviceType),
                                     DecodeSensors(Iterate(sensorList).value, DeviceWriter(address, deviceType)).value))
    ensures Iterate(sensorList).Ok? && DecodeSensors(Iterate(sensorList).value, DeviceWriter(address, deviceType)).Err? ==>
              DecodeDevice(d) == Err(DecodeSensors(Iterate(sensorList).value, DeviceWriter(address, deviceType)).failure)
  {
  }

  /**
   * A `sensors` field that is a dict or a string is iterated key by key or
   * character by character: each entry is a string, which cannot be
   * subscripted, so any entry at all raises TypeError, and an empty one
   * gives a device with no sensors.
   */
  lemma SensorsNotAList(d: Json, address: Json, deviceType: Json, sensorList: Json)
    requires Subscript(d, "device_address") == Ok(address)
    requires Subscript(d, "device_type") == Ok(deviceType)
    requires Subscript(d, "sensors") == Ok(sensorList)
    requires sensorList.JObject? || sensorList.JString?
    ensures (sensorList.JObject? && sensorList.members != []) || (sensorList.JString? && sensorList.str != []) ==>
              DecodeDevice(d) == Err(TypeError)
    ensures sensorList == JObject([]) || sensorList == JString([]) ==>
              DecodeDevice(d) == Ok((DeviceWriter(address, deviceType), []))
  {
    var entries := Iterate(sensorList).value;
    var dev := DeviceWriter(address, deviceType);
    DecodeDeviceFields(d, address, deviceType, sensorList);
    forall k | 0 <= k < |entries|
      ensures DecodeSensor(entries[k], dev) == Err(TypeError)
    {
      assert entries[k].JString?;
    }
    if |entries| > 0 {
      DecodeSensorsOk(entries, dev);
      DecodeSensorsFails(entries, dev);
    }
  }

  /** A Device packet missing its address, its type or its sensor list gives None and changes nothing. */
  lemma DeviceMissingFieldIsNone(reg: Registries, d: Json)
    requires Subscript(d, "packet_type") == Ok(JString("Device"))
    requires || !HasMember(d.members, "device_address")
             || !HasMember(d.members, "device_type")
             || !HasMember(d.members, "sensors")
    ensures DecodeDevice(d) == Err(KeyError)
    ensures Dispatch(reg, d) == (ReturnedNone, reg)
  {
    SubscriptFinds(d, "device_address");
    SubscriptFinds(d, "device_type");
    SubscriptFinds(d, "sensors");
  }

  /** Decoding a reading packet whose address and value are present. */
  lemma DecodeReadingFields(sensors: map<Json, SensorWriter>, d: Json, address: Json, value: Json)
    requires Subscript(d, "sensor_address") == Ok(address)
    requires Subscript(d, "data_value") == Ok(value)
    ensures DecodeReading(sensors, d) == if !Hashable(address) then Err(TypeError)
                                         else if address in sensors then Ok(ReadingsWriter(sensors[address], value))
                                         else Err(KeyError)
  {
  }

  /** parse_json on a SensorReading packet. */
  lemma DispatchReading(reg: Registries, d: Json)
    requires Subscript(d, "packet_type") == Ok(JString("SensorReading"))
    ensures DecodeReading(reg.sensors, d).Err? ==> Dispatch(reg, d) == (Outcome(DecodeReading(reg.sensors, d).failure), reg)
    ensures DecodeReading(reg.sensors, d).Ok? ==> Dispatch(reg, d) == (Returned([ReadingRecord(DecodeReading(reg.sensors, d).value)]), reg)
  {
  }

  /** A SensorReading packet missing its address or its value gives None and changes nothing. */
  lemma ReadingMissingFieldIsNone(reg: Registries, d: Json)
    requires Subscript(d, "packet_type") == Ok(JString("SensorReading"))
    requires !HasMember(d.members, "sensor_address") || !HasMember(d.members, "data_value")
    ensures DecodeReading(reg.sensors, d) == Err(KeyError)
    ensures Dispatch(reg, d) == (ReturnedNone, reg)
  {
    SubscriptFinds(d, "sensor_address");
    SubscriptFinds(d, "data_value");
    DispatchReading(reg, d);
  }

  /** parse_json on a Device packet that decodes to a device with a hashable address. */
  lemma DispatchDevice(reg: Registries, d: Json, dev: DeviceWriter, sensorObjects: seq<SensorWriter>)
    requires Subscript(d, "packet_type") == Ok(JString("Device"))
    requires DecodeDevice(d) == Ok((dev, sensorObjects))
    requires Hashable(dev.deviceAddress)
    ensures var r := Register(reg.sensors, sensorObjects);
      Dispatch(reg, d) == (if r.raised then Raised else Returned([DeviceRecord(dev)] + r.appended),
                           Registries(if dev.deviceAddress in reg.devices then reg.devices
                                      else reg.devices[dev.deviceAddress := dev],
                                      r.sensors))
  {
  }

  /**
   * A Device packet whose device and sensors have hashable addresses
   * returns the device record followed by every sensor record, registers
   * the device if its address is new and writes every sensor's address.
   */
  lemma DevicePacket(reg: Registries, d: Json, dev: DeviceWriter, sensorObjects: seq<SensorWriter>)
    requires Subscript(d, "packet_type") == Ok(JString("Device"))
    requires DecodeDevice(d) == Ok((dev, sensorObjects))
    requires Hashable(dev.deviceAddress)
    requires forall k :: 0 <= k < |sensorObjects| ==> Hashable(sensorObjects[k].sensorAddress)
    ensures Dispatch(reg, d).0.Returned?
    ensures |Dispatch(reg, d).0.objects| == |sensorObjects| + 1
    ensures Dispatch(reg, d).0.objects[0] == DeviceRecord(dev)
    ensures forall k :: 0 <= k < |sensorObjects| ==> Dispatch(reg, d).0.objects[k + 1] == SensorRecord(sensorObjects[k])
    ensures Dispatch(reg, d).1.devices == if dev.deviceAddress in reg.devices then reg.devices
                                          else reg.devices[dev.deviceAddress := dev]
    ensures forall k :: 0 <= k < |sensorObjects| ==> sensorObjects[k].sensorAddress in Dispatch(reg, d).1.sensors
  {
    var r := Register(reg.sensors, sensorObjects);
    RegisterAppends(reg.sensors, sensorObjects);
    RegisterWrites(reg.sensors, sensorObjects);
    assert !r.raised;
    DispatchDevice(reg, d, dev, sensorObjects);
    assert Dispatch(reg, d).0 == Returned([DeviceRecord(dev)] + r.appended);
    AfterFirst(DeviceRecord(dev), r.appended);
  }

  /**
   * A Device packet with a sensor whose address cannot be hashed raises;
   * a device with a hashable address is registered before that happens.
   */
  lemma UnhashableSensorRaises(reg: Registries, d: Json, dev: DeviceWriter, sensorObjects: seq<SensorWriter>, k: nat)
    requires Subscript(d, "packet_type") == Ok(JString("Device"))
    requires DecodeDevice(d) == Ok((dev, sensorObjects))
    requires k < |sensorObjects|
    requires !Hashable(sensorObjects[k].sensorAddress)
    ensures Dispatch(reg, d).0 == Raised
    ensures Hashable(dev.deviceAddress) ==>
              Dispatch(reg, d).1.devices == if dev.deviceAddress in reg.devices then reg.devices
                                            else reg.devices[dev.deviceAddress := dev]
  {
    RegisterRaises(reg.sensors, sensorObjects);
    if Hashable(dev.deviceAddress) {
      DispatchDevice(reg, d, dev, sensorObjects);
    }
  }

  /** Proof helper for the solver: the items after the head of `[x] + s` are those of `s`. */
  lemma AfterFirst(x: Writer, s: seq<Writer>)
    ensures forall k :: 0 <= k < |s| ==> ([x] + s)[k + 1] == s[k]
  {
  }

  /** The sensor record the server should build from a firmware sensor. */
  function SensorRecordOf(s: DeviceModel.Sensor, dev: DeviceWriter): SensorWriter
  {
    SensorWriter(JString(s.sensorAddress), dev, JString(s.sensorName), JString(s.sensorDescription), JString(s.unit))
  }

  /** The fields the server reads from a firmware sensor's document. */
  lemma SensorDocument(s: DeviceModel.Sensor)
    ensures Subscript(s.Parse(), "sensor_address") == Ok(JString(s.sensorAddress))
    ensures Subscript(s.Parse(), "sensor_name") == Ok(JString(s.sensorName))
    ensures Subscript(s.Parse(), "sensor_description") == Ok(JString(s.sensorDescription))
    ensures Subscript(s.Parse(), "unit") == Ok(JString(s.unit))
  {
    var members := s.Parse().members;
    LookupLast(members, 0);
    LookupLast(members, 1);
    LookupLast(members, 2);
    LookupLast(members, 3);
  }

  /** The fields the server reads from a firmware device's document. */
  lemma DeviceDocument(device: DeviceModel.Device)
    ensures Subscript(device.Parse(), "packet_type") == Ok(JString("Device"))
    ensures Subscript(device.Parse(), "device_address") == Ok(JString(device.deviceAddress))
    ensures Subscript(device.Parse(), "device_type") == Ok(JString(device.deviceName))
    ensures Subscript(device.Parse(), "sensors") == Ok(DeviceModel.SensorDocs(device.sensorVector))
  {
    var members := device.Parse().members;
    LookupLast(members, 0);
    LookupLast(members, 1);
    LookupLast(members, 2);
    LookupLast(members, 3);
  }

  /** The fields the server reads from a firmware reading's document. */
  lemma ReadingDocument(reading: DeviceModel.SensorReading)
    ensures Subscript(reading.Parse(), "packet_type") == Ok(JString("SensorReading"))
    ensures Subscript(reading.Parse(), "sensor_address") == Ok(JString(reading.sensorAddress))
    ensures Subscript(reading.Parse(), "data_value") == Ok(JNumber(reading.dataValue))
  {
    var members := reading.Parse().members;
    LookupLast(members, 0);
    LookupLast(members, 1);
    LookupLast(members, 2);
  }

  /** A firmware sensor's document decodes to that sensor's record. */
  lemma SensorRoundTrip(s: DeviceModel.Sensor, dev: DeviceWriter)
    ensures DecodeSensor(s.Parse(), dev) == Ok(SensorRecordOf(s, dev))
  {
    SensorDocument(s);
    DecodeSensorFields(s.Parse(), dev, JString(s.sensorAddress), JString(s.sensorName), JString(s.sensorDescription), JString(s.unit));
  }

  /**
   * A firmware device with at least one sensor: its document decodes to
   * its address and type and, in order, every sensor's address, name,
   * description and unit.
   */
  lemma DeviceRoundTrip(device: DeviceModel.Device)
    requires |device.sensorVector| > 0
    ensures var dev := DeviceWriter(JString(device.deviceAddress), JString(device.deviceName));
      && DecodeDevice(device.Parse()).Ok?
      && DecodeDevice(device.Parse()).value.0 == dev
      && |DecodeDevice(device.Parse()).value.1| == |device.sensorVector|
      && forall k :: 0 <= k < |device.sensorVector| ==>
           DecodeDevice(device.Parse()).value.1[k] == SensorRecordOf(device.sensorVector[k], dev)
  {
    var dev := DeviceWriter(JString(device.deviceAddress), JString(device.deviceName));
    DeviceDocument(device);
    var entries := DeviceModel.SensorDocs(device.sensorVector).items;
    forall k | 0 <= k < |entries|
      ensures DecodeSensor(entries[k], dev) == Ok(SensorRecordOf(device.sensorVector[k], dev))
    {
      SensorRoundTrip(device.sensorVector[k], dev);
    }
    DecodeSensorsOk(entries, dev);
    DecodeSensorsEach(entries, dev);
    DecodeDeviceFields(device.Parse(), JString(device.deviceAddress), JString(device.deviceName), JArray(entries));
  }

  /**
   * A firmware device without sensors renders its sensors as null, and
   * iterating null raises TypeError: the server's parse fails and the
   * registries stay as they were.
   */
  lemma DeviceWithoutSensorsRaises(reg: Registries, device: DeviceModel.Device)
    requires device.sensorVector == []
    ensures DecodeDevice(device.Parse()) == Err(TypeError)
    ensures Dispatch(reg, device.Parse()) == (Raised, reg)
  {
    DeviceDocument(device);
    DecodeDeviceFields(device.Parse(), JString(device.deviceAddress), JString(device.deviceName), JNull);
  }

  /**
   * The decoding of a firmware device packet with sensors: hashable
   * addresses throughout, and the records DeviceRoundTrip describes.
   */
  lemma DevicePacketDecodes(device: DeviceModel.Device)
    requires |device.sensorVector| > 0
    ensures Subscript(device.Parse(), "packet_type") == Ok(JString("Device"))
    ensures DecodeDevice(device.Parse()).Ok?
    ensures Hashable(DecodeDevice(device.Parse()).value.0.deviceAddress)
    ensures forall k :: 0 <= k < |DecodeDevice(device.Parse()).value.1| ==>
              Hashable(DecodeDevice(device.Parse()).value.1[k].sensorAddress)
  {
    var dev := DeviceWriter(JString(device.deviceAddress), JString(device.deviceName));
    DeviceDocument(device);
    DeviceRoundTrip(device);
    var sensorObjects := DecodeDevice(device.Parse()).value.1;
    forall k | 0 <= k < |sensorObjects|
      ensures Hashable(sensorObjects[k].sensorAddress)
    {
      assert sensorObjects[k] == SensorRecordOf(device.sensorVector[k], dev);
    }
  }

  /**
   * A firmware device packet with sensors returns the device record
   * followed by each sensor's record, in order.
   */
  lemma DevicePacketReturns(reg: Registries, device: DeviceModel.Device)
    requires |device.sensorVector| > 0
    ensures var dev := DeviceWriter(JString(device.deviceAddress), JString(device.deviceName));
      var result := Dispatch(reg, device.Parse()).0;
      && result.Returned?
      && |result.objects| == |device.sensorVector| + 1
      && result.objects[0] == DeviceRecord(dev)
      && forall k :: 0 <= k < |device.sensorVector| ==>
           result.objects[k + 1] == SensorRecord(SensorRecordOf(device.sensorVector[k], dev))
  {
    DevicePacketDecodes(device);
    DeviceRoundTrip(device);
    var decoded := DecodeDevice(device.Parse()).value;
    DevicePacket(reg, device.Parse(), decoded.0, decoded.1);
  }

  /**
   * A firmware device packet with sensors registers the device if its
   * address is new and registers every sensor's address.
   */
  lemma DevicePacketRegisters(reg: Registries, device: DeviceModel.Device)
    requires |device.sensorVector| > 0
    ensures var after := Dispatch(reg, device.Parse()).1;
      && after.devices == (if JString(device.deviceAddress) in reg.devices then reg.devices
                           else reg.devices[JString(device.deviceAddress) := DeviceWriter(JString(device.deviceAddress), JString(device.deviceName))])
      && forall k :: 0 <= k < |device.sensorVector| ==> JString(device.sensorVector[k].sensorAddress) in after.sensors
  {
    DevicePacketDecodes(device);
    DeviceRoundTrip(device);
    var dev := DeviceWriter(JString(device.deviceAddress), JString(device.deviceName));
    PacketRegisters(reg, device.Parse(), dev, DecodeDevice(device.Parse()).value.1, device.sensorVector);
  }

  /**
   * The registries after a Device packet that decodes to a device record
   * with a string address and to one sensor record per firmware sensor,
   * each with that sensor's address.
   */
  lemma PacketRegisters(reg: Registries, d: Json, dev: DeviceWriter, sensorObjects: seq<SensorWriter>,
                        sensors: seq<DeviceModel.Sensor>)
    requires Subscript(d, "packet_type") == Ok(JString("Device"))
    requires DecodeDevice(d) == Ok((dev, sensorObjects))
    requires dev.deviceAddress.JString?
    requires |sensorObjects| == |sensors|
    requires forall k :: 0 <= k < |sensorObjects| ==> sensorObjects[k] == SensorRecordOf(sensors[k], dev)
    ensures var after := Dispatch(reg, d).1;
      && after.devices == (if dev.deviceAddress in reg.devices then reg.devices else reg.devices[dev.deviceAddress := dev])
      && forall k :: 0 <= k < |sensors| ==> JString(sensors[k].sensorAddress) in after.sensors
  {
    assert forall k :: 0 <= k < |sensorObjects| ==> sensorObjects[k].sensorAddress == JString(sensors[k].sensorAddress);
    DevicePacket(reg, d, dev, sensorObjects);
  }

  /**
   * A firmware reading for a registered sensor yields one reading record
   * bound to that sensor's record and carrying the value; the registries
   * stay as they were.
   */
  lemma ReadingRoundTrip(reg: Registries, reading: DeviceModel.SensorReading)
    requires JString(reading.sensorAddress) in reg.sensors
    ensures Dispatch(reg, reading.Parse())
         == (Returned([ReadingRecord(ReadingsWriter(reg.sensors[JString(reading.sensorAddress)], JNumber(reading.dataValue)))]), reg)
  {
    ReadingDocument(reading);
    DecodeReadingFields(reg.sensors, reading.Parse(), JString(reading.sensorAddress), JNumber(reading.dataValue));
    DispatchReading(reg, reading.Parse());
  }

  /** A reading for a sensor that is not registered gives None. */
  lemma UnregisteredReadingIsNone(reg: Registries, reading: DeviceModel.SensorReading)
    requires JString(reading.sensorAddress) !in reg.sensors
    ensures Dispatch(reg, reading.Parse()) == (ReturnedNone, reg)
  {
    ReadingDocument(reading);
    DecodeReadingFields(reg.sensors, reading.Parse(), JString(reading.sensorAddress), JNumber(reading.dataValue));
    DispatchReading(reg, reading.Parse());
  }

  /** A sensor's own document has no packet type, so as a packet it gives None. */
  lemma SensorDocumentIsNotAPacket(reg: Registries, s: DeviceModel.Sensor)
    ensures Dispatch(reg, s.Parse()) == (ReturnedNone, reg)
  {
    LookupFinds(s.Parse().members, "packet_type");
  }

  /**
   * After a device packet, any of its sensors' addresses is registered,
   * and a reading from that sensor gives one reading record bound to the
   * record registered under the address, leaving the registries as they are.
   */
  lemma DeviceThenReading(reg: Registries, device: DeviceModel.Device, k: nat, value: real)
    requires k < |device.sensorVector|
    ensures var after := Dispatch(reg, device.Parse()).1;
      var address := JString(device.sensorVector[k].sensorAddress);
      var reading := DeviceModel.SensorReading(value, device.sensorVector[k].sensorAddress);
      && address in after.sensors
      && Dispatch(after, reading.Parse()) == (Returned([ReadingRecord(ReadingsWriter(after.sensors[address], JNumber(value)))]), after)
  {
    DevicePacketRegisters(reg, device);
    var after := Dispatch(reg, device.Parse()).1;
    ReadingRoundTrip(after, DeviceModel.SensorReading(value, device.sensorVector[k].sensorAddress));
  }

  /** The server's module-level state: the two registries. */
  class Subscriber {
    var devices: map<Json, DeviceWriter>
    var sensors: map<Json, SensorWriter>

    /** Both registries start empty. */
    constructor ()
      ensures devices == map[] && sensors == map[]
    {
      devices := map[];
      sensors := map[];
    }

    /** The registries as a value. */
    function Registry(): Registries
      reads this
    {
      Registries(devices, sensors)
    }

    /** `parse_json`: decodes a packet, updating the registries as Dispatch says. */
    method ParseJson(d: Json) returns (r: ParseResult)
      modifies this
      ensures (r, Registry()) == Dispatch(old(Registry()), d)
    {
      ghost var before := Registry();
      var packetType := Subscript(d, "packet_type");
      if packetType.Err? {
        return Outcome(packetType.failure);
      }
      if packetType.value == JString("Device") {
        var parsed := ParseDevice(d);
        if parsed.Err? {
          return Outcome(parsed.failure);
        }
        var dev, sensorArray := parsed.value.0, parsed.value.1;
        if !Hashable(dev.Address()) {
          return Raised;
        }
        DispatchDevice(before, d, dev, sensorArray);
        r := RegisterDevice(dev, sensorArray);
      } else if packetType.value == JString("SensorReading") {
        DispatchReading(before, d);
        var reading := DecodeReading(sensors, d);
        if reading.Err? {
          return Outcome(reading.failure);
        }
        r := Returned([ReadingRecord(reading.value)]);
      } else {
        r := Returned([]);
      }
    }

    /**
     * The registration half of a Device packet: the device is added if its
     * address is new, then each sensor is written and appended in turn.
     */
    method RegisterDevice(dev: DeviceWriter, sensorArray: seq<SensorWriter>) returns (r: ParseResult)
      requires Hashable(dev.deviceAddress)
      modifies this
      ensures devices == if dev.deviceAddress in old(devices) then old(devices) else old(devices)[dev.deviceAddress := dev]
      ensures var registration := Register(old(sensors), sensorArray);
        && sensors == registration.sensors
        && r == if registration.raised then Raised else Returned([DeviceRecord(dev)] + registration.appended)
    {
      if dev.Address() !in devices {
        devices := devices[dev.Address() := dev];
      }
      var arr := [DeviceRecord(dev)];
      var i := 0;
      while i < |sensorArray|
        invariant 0 <= i <= |sensorArray|
        invariant devices == if dev.deviceAddress in old(devices) then old(devices) else old(devices)[dev.deviceAddress := dev]
        invariant |arr| >= 1 && arr[0] == DeviceRecord(dev)
        invariant Register(old(sensors), sensorArray[..i]) == Registration(sensors, arr[1..], false)
      {
        var sensorObject := sensorArray[i];
        assert sensorArray[..i + 1][..i] == sensorArray[..i];
        if !Hashable(sensorObject.Address()) {
          RegisterStaysRaised(old(sensors), sensorArray, i + 1);
          return Raised;
        }
        assert (arr + [SensorRecord(sensorObject)])[1..] == arr[1..] + [SensorRecord(sensorObject)];
        sensors := sensors[sensorObject.Address() := sensorObject];
        arr := arr + [SensorRecord(sensorObject)];
        i := i + 1;
      }
      assert sensorArray[..i] == sensorArray;
      assert arr == [DeviceRecord(dev)] + arr[1..];
      r := Returned(arr);
    }
  }
}

=== FILE: random_walk.dfy ===
/**
 * The bounded random walk that simulates the sensor's value.
 *
 * The walk keeps a price and a band [lBound, uBound] fixed at construction.
 * Each step either snaps a price that left the band back inside it or adds
 * one sample of the noise. The noise source is not modelled: the sample a
 * step would draw is passed in, and prices are reals, not doubles.
 */
module Walk {

  /**
   * The price after one step from `price` in the band [l, u] when the noise
   * source yields `r`.
   */
  function Next(price: real, l: real, u: real, r: real): (p: real)
    // A recovery step lands inside the band, so the step after it perturbs.
    ensures u - l >= 2.0 && (price < l || price > u - 1.0) ==> l <= p <= u - 1.0
    // With samples of size at most 1, a price in [l - 1, u] stays there.
    ensures u - l >= 2.0 && l - 1.0 <= price <= u && -1.0 <= r <= 1.0 ==> l - 1.0 <= p <= u
  {
    if price < l then l + 1.0
    else if price > u - 1.0 then u - 1.0
    else price + r
  }

  /**
   * The price after one step per sample, the samples taken in order.
   * However many steps are taken, a walk whose samples all lie in [-1, 1]
   * stays within [l - 1, u] once it starts there.
   */
  function Run(price: real, l: real, u: real, samples: seq<real>): (p: real)
    ensures && u - l >= 2.0
            && l - 1.0 <= price <= u
            && (forall k :: 0 <= k < |samples| ==> -1.0 <= samples[k] <= 1.0)
            ==> l - 1.0 <= p <= u
    decreases |samples|
  {
    if samples == [] then price
    else
      assert forall k :: 0 <= k < |samples| - 1 ==> samples[1..][k] == samples[k + 1];
      Run(Next(price, l, u, samples[0]), l, u, samples[1..])
  }

  /** After a recovery step the next step adds its sample unchanged. */
  lemma RecoveryThenPerturb(price: real, l: real, u: real, r: real, r': real)
    requires u - l >= 2.0
    requires price < l || price > u - 1.0
    ensures Next(Next(price, l, u, r), l, u, r') == Next(price, l, u, r) + r'
  {
  }

  class RandomWalk {
    var price: real
    var uBound: real
    var lBound: real

    /** The band is wide enough for a recovery step to land inside it. */
    ghost predicate Valid()
      reads this
    {
      uBound - lBound >= 2.0
    }

    /** The price lies where steps with samples in [-1, 1] keep it. */
    ghost predicate Contained()
      reads this
    {
      lBound - 1.0 <= price <= uBound
    }

    /** The default walk starts at 0 in the band [0, 4096]. */
    constructor ()
      ensures price == 0.0 && uBound == 4096.0 && lBound == 0.0
      ensures Valid() && Contained()
    {
      price := 0.0;
      uBound := 4096.0;
      lBound := 0.0;
    }

    /** A walk seeded with `start` starts there in the band [start - 10, start + 10]. */
    constructor Seeded(start: real)
      ensures price == start && uBound == start + 10.0 && lBound == start - 10.0
      ensures Valid() && Contained()
    {
      price := start;
      uBound := start + 10.0;
      lBound := start - 10.0;
    }

    /** The current price; nothing changes. */
    method GetPrice() returns (p: real)
      ensures p == price
    {
      p := price;
    }

    /** One step, `r` being the sample the noise source would draw. */
    method Iteration(r: real)
      modifies this`price
      ensures old(price) < lBound ==> price == lBound + 1.0
      ensures lBound <= old(price) && old(price) > uBound - 1.0 ==> price == uBound - 1.0
      ensures lBound <= old(price) <= uBound - 1.0 ==> price == old(price) + r
      ensures price == Next(old(price), lBound, uBound, r)
      ensures lBound == old(lBound) && uBound == old(uBound)
      ensures old(Valid()) && old(Contained()) && -1.0 <= r <= 1.0 ==> Contained()
    {
      if price < lBound {
        price := lBound + 1.0;
        return;
      }
      if price > uBound - 1.0 {
        price := uBound - 1.0;
        return;
      }
      price := price + r;
    }
  }
}

=== FILE: sensor_addresses.dfy ===
/**
 * The device's identity and its sensors' addresses, built once at start-up.
 *
 * The MAC address the Wi-Fi interface reports is a parameter. A sensor's
 * address is the MAC address, a colon and the sensor's index written in
 * decimal, padded to two digits below ten.
 */
module SensorAddresses {
  import DeviceModel
  import Walk

  /** The name of the board. */
  const DeviceName: string := "ESP32-devkit-V4"

  /** The name of the sensor; entry i of the address list is named by its i-th character. */
  const SensorName: string := "RANDOM WALK"

  /**
   * The name of entry `i`: Arduino's `String` yields the character `'\0'`
   * for an index past its end, and a `String` made from `'\0'` is empty.
   */
  function NameAt(i: nat): (name: string)
    ensures i < |SensorName| ==> name == [SensorName[i]]
    ensures i >= |SensorName| ==> name == ""
  {
    if i < |SensorName| then [SensorName[i]] else ""
  }

  /** The number of sensors the firmware is configured with. */
  const NumberOfSensors: int := 1

  /** The character of a decimal digit. */
  function Digit(d: nat): (c: char)
    requires d < 10
    ensures '0' <= c <= '9'
  {
    ('0' as int + d) as char
  }

  /** Arduino's `String(n)` for a non-negative `n`: decimal, no leading zeros. */
  function Decimal(n: nat): (s: string)
    ensures |s| >= 1
    ensures forall k :: 0 <= k < |s| ==> '0' <= s[k] <= '9'
    ensures n >= 10 ==> |s| >= 2
    ensures n < 10 ==> |s| == 1
    ensures s[0] == '0' <==> n == 0
  {
    if n < 10 then [Digit(n)] else Decimal(n / 10) + [Digit(n % 10)]
  }

  /** Different numbers are written differently. */
  lemma {:induction false} DecimalInjective(a: nat, b: nat)
    ensures Decimal(a) == Decimal(b) ==> a == b
  {
    if a >= 10 && b >= 10 && Decimal(a) == Decimal(b) {
      var da, db := Decimal(a), Decimal(b);
      assert da[..|da| - 1] == Decimal(a / 10);
      assert db[..|db| - 1] == Decimal(b / 10);
      DecimalInjective(a / 10, b / 10);
      assert Digit(a % 10) == da[|da| - 1] == db[|db| - 1] == Digit(b % 10);
    }
  }

  /** The address of sensor `i` of the device with MAC address `mac`. */
  function SensorIdentifier(mac: string, i: nat): (id: string)
    ensures mac + ":" <= id
    ensures |id| >= |mac| + 3
  {
    if i < 10 then mac + ":0" + Decimal(i) else mac + ":" + Decimal(i)
  }

  /** What follows `mac + ":"` in a sensor's address. */
  lemma IdentifierSuffix(mac: string, i: nat)
    ensures SensorIdentifier(mac, i)[|mac| + 1..] == if i < 10 then "0" + Decimal(i) else Decimal(i)
  {
  }

  /** Different sensors of one device get different addresses. */
  lemma IdentifiersDistinct(mac: string, i: nat, j: nat)
    requires i != j
    ensures SensorIdentifier(mac, i) != SensorIdentifier(mac, j)
  {
    IdentifierSuffix(mac, i);
    IdentifierSuffix(mac, j);
    DecimalInjective(i, j);
    if i < 10 && j < 10 {
      assert ("0" + Decimal(i))[1..] == Decimal(i);
      assert ("0" + Decimal(j))[1..] == Decimal(j);
    } else if i < 10 {
      assert ("0" + Decimal(i))[0] == '0' != Decimal(j)[0];
    } else if j < 10 {
      assert ("0" + Decimal(j))[0] == '0' != Decimal(i)[0];
    }
  }

  /** The identity record: the device's (name, MAC address) and its sensors' (name, address) pairs. */
  class DeviceNameToAddress {
    var deviceAddress: (string, string)
    var sensorAddressVector: seq<(string, string)>

    /**
     * Builds the list for indices 0 through `sensorNo` inclusive, so one
     * entry more than `sensorNo` when it is non-negative.
     */
    constructor (sensorNo: int, mac: string)
      ensures deviceAddress == (DeviceName, mac)
      ensures |sensorAddressVector| == if sensorNo < 0 then 0 else sensorNo + 1
      ensures forall i :: 0 <= i < |sensorAddressVector| ==>
                sensorAddressVector[i] == (NameAt(i), SensorIdentifier(mac, i))
    {
      var device := (DeviceName, mac);
      var entries: seq<(string, string)> := [];
      var i := 0;
      while i <= sensorNo
        invariant 0 <= i <= if sensorNo < 0 then 0 else sensorNo + 1
        invariant |entries| == i
        invariant forall k :: 0 <= k < i ==> entries[k] == (NameAt(k), SensorIdentifier(mac, k))
      {
        var identifier := if i < 10 then device.1 + ":0" + Decimal(i) else device.1 + ":" + Decimal(i);
        var name := if i < |SensorName| then [SensorName[i]] else "";
        entries := entries + [(name, identifier)];
        i := i + 1;
      }
      deviceAddress := device;
      sensorAddressVector := entries;
    }
  }

  /**
   * The firmware's start-up objects: the identity record for the configured
   * number of sensors, a device built from it that holds no sensors, and a
   * random walk seeded with 15.
   */
  method StartUp(mac: string) returns (info: DeviceNameToAddress, dv: DeviceModel.Device, rw: Walk.RandomWalk)
    ensures info.deviceAddress == (DeviceName, mac)
    ensures info.sensorAddressVector == [("R", mac + ":00"), ("A", mac + ":01")]
    ensures dv.deviceAddress == mac && dv.deviceName == DeviceName && dv.sensorVector == []
    ensures rw.price == 15.0 && rw.lBound == 5.0 && rw.uBound == 25.0
  {
    info := new DeviceNameToAddress(NumberOfSensors, mac);
    assert Decimal(0) == "0" && Decimal(1) == "1";
    assert mac + ":0" + "0" == mac + ":00" && mac + ":0" + "1" == mac + ":01";
    assert NameAt(0) == "R" && NameAt(1) == "A";
    dv := new DeviceModel.Device(info.deviceAddress.1, info.deviceAddress.0);
    rw := new Walk.RandomWalk.Seeded(15.0);
  }
}

=== FILE: writers.dfy ===
/**
 * The server's record writers and the SQL statements they produce.
 *
 * The writers' fields are set once, at construction, to values taken from a
 * decoded packet, so the writers are values. Each statement embeds the
 * fields' text between double quotes, exactly as the templates lay it out,
 * without any escaping. Running a statement against the database is not
 * modelled.
 */
module Writers {
  import opened Documents

  /** `s` between double quotes. */
  function Quoted(s: string): string
  {
    "\"" + s + "\""
  }

  /** `s` holds no double quote. */
  predicate QuoteFree(s: string)
  {
    '"' !in s
  }

  /**
   * Python's `str()` of a decoded value, as an f-string field uses it: a
   * string is its own text; the text of any other value is given by `show`,
   * which stands for Python's formatting of numbers, None, lists and dicts.
   */
  function Text(v: Json, show: Json -> string): string
  {
    if v.JString? then v.str else show(v)
  }

  // ---------------------------------------------------------------------
  // Reading a statement back: the contents of its double-quoted literals.
  // ---------------------------------------------------------------------

  /**
   * The contents of the double-quoted literals of `s`, in order; `open` holds
   * the text read so far of a literal that is not yet closed.
   */
  function Scan(s: string, open: Option<string>): seq<string>
    decreases |s|
  {
    if s == [] then []
    else if s[0] == '"' then
      if open.Some? then [open.value] + Scan(s[1..], None) else Scan(s[1..], Some(""))
    else
      if open.Some? then Scan(s[1..], Some(open.value + [s[0]])) else Scan(s[1..], None)
  }

  /** The values a reader of the statement `sql` finds between its double quotes. */
  function QuotedFields(sql: string): seq<string>
  {
    Scan(sql, None)
  }

  lemma {:induction false} ScanSkips(u: string, t: string)
    requires QuoteFree(u)
    ensures Scan(u + t, None) == Scan(t, None)
    decreases |u|
  {
    if u != [] {
      assert (u + t)[0] == u[0] && (u + t)[1..] == u[1..] + t;
      ScanSkips(u[1..], t);
    } else {
      assert u + t == t;
    }
  }

  lemma {:induction false} ScanCollects(v: string, t: string, acc: string)
    requires QuoteFree(v)
    ensures Scan(v + t, Some(acc)) == Scan(t, Some(acc + v))
    decreases |v|
  {
    if v == [] {
      assert v + t == t && acc + v == acc;
    } else {
      assert (v + t)[0] == v[0] && (v + t)[1..] == v[1..] + t;
      ScanCollects(v[1..], t, acc + [v[0]]);
      assert acc + [v[0]] + v[1..] == acc + v;
    }
  }

  /** A quoted quote-free value after quote-free text is the next field read. */
  lemma QuotedStep(u: string, v: string, t: string)
    requires QuoteFree(u) && QuoteFree(v)
    ensures Scan(u + Quoted(v) + t, None) == [v] + Scan(t, None)
  {
    var rest := Quoted(v) + t;
    assert u + Quoted(v) + t == u + rest;
    ScanSkips(u, rest);
    assert rest[1..] == v + ("\"" + t);
    ScanCollects(v, "\"" + t, "");
    assert "" + v == v;
  }

  /** Quote-free text holds no field. */
  lemma ScanPlain(u: string)
    requires QuoteFree(u)
    ensures Scan(u, None) == []
  {
    ScanSkips(u, []);
    assert u + [] == u;
  }

  // ---------------------------------------------------------------------
  // What kind of statement: the text after leading blanks.
  // ---------------------------------------------------------------------

  /** `sql` without its leading spaces and line breaks. */
  function TrimLeft(sql: string): string
  {
    if sql != [] && (sql[0] == ' ' || sql[0] == '\n') then TrimLeft(sql[1..]) else sql
  }

  lemma {:induction false} TrimBlanks(blanks: string, rest: string)
    requires forall k :: 0 <= k < |blanks| ==> blanks[k] == ' ' || blanks[k] == '\n'
    requires rest != [] && rest[0] != ' ' && rest[0] != '\n'
    ensures TrimLeft(blanks + rest) == rest
    decreases |blanks|
  {
    if blanks != [] {
      assert (blanks + rest)[1..] == blanks[1..] + rest;
      TrimBlanks(blanks[1..], rest);
    } else {
      assert blanks + rest == rest;
    }
  }

  /** The statement inserts a row unless one with the same key exists. */
  predicate IgnoresDuplicates(sql: string)
  {
    "INSERT OR IGNORE INTO " <= TrimLeft(sql)
  }

  /** The statement inserts a row whatever the table holds. */
  predicate AlwaysInserts(sql: string)
  {
    "INSERT INTO " <= TrimLeft(sql)
  }

  // ---------------------------------------------------------------------
  // The statement templates, piece by piece.
  // ---------------------------------------------------------------------

  /** `n` spaces. */
  function Spaces(n: nat): (s: string)
    ensures |s| == n && forall k :: 0 <= k < n ==> s[k] == ' '
  {
    seq(n, _ => ' ')
  }

  const InsertOrIgnoreInto: string := "INSERT OR IGNORE INTO "
  const InsertInto: string := "INSERT INTO "

  /** The Devices template up to its values; it opens with a line break and indentation. */
  const DevicesInsert: string :=
    "\n" + Spaces(8) + InsertOrIgnoreInto + "Devices(device_address, device_type)"
    + "\n" + Spaces(8) + "VALUES ("

  const DevicesEnd: string := ");"

  const SensorsInsert: string :=
    InsertOrIgnoreInto + SensorsColumns + "\n" + Spaces(24) + "VALUES ("

  /** The Sensors template after its keyword. */
  const SensorsRest: string := SensorsColumns + "\n" + Spaces(24) + "VALUES ("

  /** The Sensors table and its columns. */
  const SensorsColumns: string :=
    "Sensors(sensor_address, " + "device_address, " + "sensor_name, " + "sensor_description, unit)"

  /** The line break and indentation between the Sensors template's second and third values. */
  const SensorsBreak: string := ",\n" + Spaces(32)

  const SensorsEnd: string := ");\n" + Spaces(20)

  const ReadingsInsert: string :=
    InsertInto + "Readings(sensor_address, data_value)"
    + "\n" + Spaces(24) + "VALUES ("

  const ReadingsEnd: string := ");\n" + Spaces(8)

  /** Text made of quote-free pieces is quote-free. */
  lemma QuoteFreeJoin(a: string, b: string)
    requires QuoteFree(a) && QuoteFree(b)
    ensures QuoteFree(a + b)
  {
  }

  /**
   * The fixed text of the templates holds no double quote. Dafny can
   * evaluate this unaided, but at more than twice the cost: the joins
   * below, here and in the three lemmas after it, keep the proof cheap.
   */
  lemma TemplatesQuoteFree()
    ensures QuoteFree(DevicesInsert) && QuoteFree(DevicesEnd)
    ensures QuoteFree(SensorsInsert) && QuoteFree(SensorsBreak) && QuoteFree(SensorsEnd)
    ensures QuoteFree(ReadingsInsert) && QuoteFree(ReadingsEnd)
    ensures QuoteFree(", ")
  {
    DevicesInsertQuoteFree();
    SensorsInsertQuoteFree();
    ReadingsInsertQuoteFree();
    assert QuoteFree(Spaces(8)) && QuoteFree(Spaces(20)) && QuoteFree(Spaces(32));
    QuoteFreeJoin(",\n", Spaces(32));
    QuoteFreeJoin(");\n", Spaces(20));
    QuoteFreeJoin(");\n", Spaces(8));
  }

  lemma DevicesInsertQuoteFree()
    ensures QuoteFree(DevicesInsert)
  {
    var a := "\n" + Spaces(8);
    QuoteFreeJoin("\n", Spaces(8));
    QuoteFreeJoin(a, InsertOrIgnoreInto);
    assert QuoteFree("Devices(device_address, device_type)");
    QuoteFreeJoin(a + InsertOrIgnoreInto, "Devices(device_address, device_type)");
    var b := a + InsertOrIgnoreInto + "Devices(device_address, device_type)";
    QuoteFreeJoin(b, a);
    QuoteFreeJoin(b + a, "VALUES (");
    assert DevicesInsert == b + a + "VALUES (";
  }

  lemma SensorsInsertQuoteFree()
    ensures QuoteFree(SensorsInsert)
  {
    assert QuoteFree("Sensors(sensor_address, ") && QuoteFree("device_address, ");
    assert QuoteFree("sensor_name, ") && QuoteFree("sensor_description, unit)");
    QuoteFreeJoin("Sensors(sensor_address, ", "device_address, ");
    QuoteFreeJoin("Sensors(sensor_address, " + "device_address, ", "sensor_name, ");
    QuoteFreeJoin("Sensors(sensor_address, " + "device_address, " + "sensor_name, ", "sensor_description, unit)");
    QuoteFreeJoin(InsertOrIgnoreInto, SensorsColumns);
    QuoteFreeJoin(InsertOrIgnoreInto + SensorsColumns, "\n");
    assert QuoteFree(Spaces(24));
    QuoteFreeJoin(InsertOrIgnoreInto + SensorsColumns + "\n", Spaces(24));
    QuoteFreeJoin(InsertOrIgnoreInto + SensorsColumns + "\n" + Spaces(24), "VALUES (");
  }

  lemma ReadingsInsertQuoteFree()
    ensures QuoteFree(ReadingsInsert)
  {
    assert QuoteFree("Readings(sensor_address, data_value)");
    var a := InsertInto + "Readings(sensor_address, data_value)";
    QuoteFreeJoin(InsertInto, "Readings(sensor_address, data_value)");
    QuoteFreeJoin(a, "\n");
    assert QuoteFree(Spaces(24));
    QuoteFreeJoin(a + "\n", Spaces(24));
    QuoteFreeJoin(a + "\n" + Spaces(24), "VALUES (");
  }


  /**
   * After leading blanks, the statement opens with `keyword`, which decides
   * whether it ignores duplicates.
   */
  lemma StatementKind(blanks: string, keyword: string, rest: string)
    requires forall k :: 0 <= k < |blanks| ==> blanks[k] == ' ' || blanks[k] == '\n'
    requires keyword == InsertOrIgnoreInto || keyword == InsertInto
    ensures IgnoresDuplicates(blanks + keyword + rest) <==> keyword == InsertOrIgnoreInto
    ensures AlwaysInserts(blanks + keyword + rest) <==> keyword == InsertInto
  {
    assert blanks + keyword + rest == blanks + (keyword + rest);
    TrimBlanks(blanks, keyword + rest);
    assert (keyword + rest)[..|keyword|] == keyword;
    assert (keyword + rest)[7] == keyword[7];
  }

  /** A statement that opens with its keyword, with no blanks before it. */
  lemma LeadingKeyword(keyword: string, rest: string)
    requires keyword == InsertOrIgnoreInto || keyword == InsertInto
    ensures IgnoresDuplicates(keyword + rest) <==> keyword == InsertOrIgnoreInto
    ensures AlwaysInserts(keyword + rest) <==> keyword == InsertInto
  {
    assert "" + keyword + rest == keyword + rest;
    StatementKind("", keyword, rest);
  }

  /** Proof helper for the solver: concatenation regrouped to the right. */
  lemma Regroup3(a: string, b: string, c: string)
    ensures a + b + c == a + (b + c)
  {
  }

  /** Proof helper for the solver: the Sensors template is its keyword followed by the rest. */
  lemma SensorsInsertSplit()
    ensures SensorsInsert == InsertOrIgnoreInto + SensorsRest
  {
  }

  /** A device record. */
  datatype DeviceWriter = DeviceWriter(deviceAddress: Json, deviceType: Json)
  {
    /** The address given at construction. */
    function Address(): (a: Json)
      ensures a == deviceAddress
    {
      deviceAddress
    }

    /** The record as an INSERT OR IGNORE into Devices. */
    function SqlQuery(show: Json -> string): (q: string)
      ensures IgnoresDuplicates(q) && !AlwaysInserts(q)
      ensures InsertOrIgnoreInto + "Devices(device_address, device_type)" <= TrimLeft(q)
    {
      var q := DevicesInsert + Quoted(Text(deviceAddress, show)) + ", " + Quoted(Text(deviceType, show)) + DevicesEnd;
      var blanks := "\n" + Spaces(8);
      var rest := "Devices(device_address, device_type)" + "\n" + Spaces(8) + "VALUES ("
                  + Quoted(Text(deviceAddress, show)) + ", " + Quoted(Text(deviceType, show)) + DevicesEnd;
      assert q == blanks + InsertOrIgnoreInto + rest;
      StatementKind(blanks, InsertOrIgnoreInto, rest);
      Regroup3(blanks, InsertOrIgnoreInto, rest);
      TrimBlanks(blanks, InsertOrIgnoreInto + rest);
      q
    }
  }

  /** A sensor record, linked to the device record it was decoded with. */
  datatype SensorWriter = SensorWriter(sensorAddress: Json, device: DeviceWriter, sensorName: Json, sensorDescription: Json, unit: Json)
  {
    /** The address given at construction. */
    function Address(): (a: Json)
      ensures a == sensorAddress
    {
      sensorAddress
    }

    /** The record as an INSERT OR IGNORE into Sensors. */
    function SqlQuery(show: Json -> string): (q: string)
      ensures IgnoresDuplicates(q) && !AlwaysInserts(q)
      ensures InsertOrIgnoreInto + SensorsColumns <= TrimLeft(q)
    {
      var values := Quoted(Text(sensorAddress, show)) + ", " + Quoted(Text(device.Address(), show)) + SensorsBreak
                    + Quoted(Text(sensorName, show)) + ", " + Quoted(Text(sensorDescription, show)) + ", "
                    + Quoted(Text(unit, show)) + SensorsEnd;
      var q := SensorsInsert + values;
      SensorsInsertSplit();
      Regroup3(InsertOrIgnoreInto, SensorsRest, values);
      LeadingKeyword(InsertOrIgnoreInto, SensorsRest + values);
      assert TrimLeft(q) == q;
      q
    }

    /** A reading record bound to this sensor and carrying `dataValue`. */
    function CreateReadings(dataValue: Json): (r: ReadingsWriter)
      ensures r.sensor == this && r.dataValue == dataValue
    {
      ReadingsWriter(this, dataValue)
    }
  }

  /** A reading record. */
  datatype ReadingsWriter = ReadingsWriter(sensor: SensorWriter, dataValue: Json)
  {
    /** The record as a plain INSERT into Readings. */
    function SqlQuery(show: Json -> string): (q: string)
      ensures AlwaysInserts(q) && !IgnoresDuplicates(q)
      ensures InsertInto + "Readings(sensor_address, data_value)" <= TrimLeft(q)
    {
      var q := ReadingsInsert + Quoted(Text(sensor.Address(), show)) + ", " + Quoted(Text(dataValue, show)) + ReadingsEnd;
      var rest := "Readings(sensor_address, data_value)" + "\n" + Spaces(24) + "VALUES ("
                  + Quoted(Text(sensor.Address(), show)) + ", " + Quoted(Text(dataValue, show)) + ReadingsEnd;
      assert q == "" + InsertInto + rest;
      StatementKind("", InsertInto, rest);
      q
    }
  }

  /** Any record the server builds; Plain is a bare instance of the base writer. */
  datatype Writer =
    | Plain
    | DeviceRecord(device: DeviceWriter)
    | SensorRecord(sensor: SensorWriter)
    | ReadingRecord(reading: ReadingsWriter)
  {
    /**
     * The record's statement; a bare writer has the empty one. Device and
     * sensor statements are INSERT OR IGNORE; only reading statements are
     * plain INSERTs, so only readings are stored again when repeated.
     */
    function SqlQuery(show: Json -> string): (q: string)
      ensures IgnoresDuplicates(q) <==> DeviceRecord? || SensorRecord?
      ensures AlwaysInserts(q) <==> ReadingRecord?
    {
      match this
      case Plain => ""
      case DeviceRecord(d) => d.SqlQuery(show)
      case SensorRecord(s) => s.SqlQuery(show)
      case ReadingRecord(r) => r.SqlQuery(show)
    }

    /** The record's text is its statement. */
    function Str(show: Json -> string): (s: string)
      ensures s == SqlQuery(show)
      ensures Plain? ==> s == ""
    {
      SqlQuery(show)
    }
  }

  /** The values of a device statement, read back from its text. */
  lemma DeviceValues(address: string, kind: string)
    requires QuoteFree(address) && QuoteFree(kind)
    ensures QuotedFields(DevicesInsert + Quoted(address) + ", " + Quoted(kind) + DevicesEnd) == [address, kind]
  {
    TemplatesQuoteFree();
    var tail := ", " + Quoted(kind) + DevicesEnd;
    assert DevicesInsert + Quoted(address) + ", " + Quoted(kind) + DevicesEnd == DevicesInsert + Quoted(address) + tail;
    QuotedStep(DevicesInsert, address, tail);
    QuotedStep(", ", kind, DevicesEnd);
    ScanPlain(DevicesEnd);
  }

  /**
   * A device statement carries the address and then the type between
   * double quotes, verbatim: a reader recovers both when neither holds a
   * double quote.
   */
  lemma DeviceQueryFields(d: DeviceWriter, show: Json -> string)
    requires QuoteFree(Text(d.deviceAddress, show)) && QuoteFree(Text(d.deviceType, show))
    ensures QuotedFields(d.SqlQuery(show)) == [Text(d.deviceAddress, show), Text(d.deviceType, show)]
  {
    DeviceValues(Text(d.deviceAddress, show), Text(d.deviceType, show));
  }

  /** The values of a sensor statement, read back from its text. */
  lemma SensorValues(address: string, deviceAddress: string, name: string, description: string, unit: string)
    requires QuoteFree(address) && QuoteFree(deviceAddress) && QuoteFree(name)
    requires QuoteFree(description) && QuoteFree(unit)
    ensures QuotedFields(SensorsInsert + (Quoted(address) + ", " + Quoted(deviceAddress) + SensorsBreak
                                          + Quoted(name) + ", " + Quoted(description) + ", "
                                          + Quoted(unit) + SensorsEnd))
         == [address, deviceAddress, name, description, unit]
  {
    TemplatesQuoteFree();
    var t2 := SensorsBreak + Quoted(name) + (", " + Quoted(description) + (", " + Quoted(unit) + SensorsEnd));
    var t1 := ", " + Quoted(deviceAddress) + t2;
    SensorValuesAfterDevice(name, description, unit);
    Regroup(SensorsInsert, Quoted(address), ", ", Quoted(deviceAddress), SensorsBreak,
            Quoted(name), Quoted(description), Quoted(unit), SensorsEnd);
    QuotedStep(SensorsInsert, address, t1);
    QuotedStep(", ", deviceAddress, t2);
  }

  /** Proof helper for the solver: the sensor statement's pieces, grouped from the right after its first value. */
  lemma Regroup(head: string, a: string, sep: string, b: string, brk: string, c: string, d: string, e: string, tail: string)
    ensures head + (a + sep + b + brk + c + sep + d + sep + e + tail)
         == head + a + (sep + b + (brk + c + (sep + d + (sep + e + tail))))
  {
  }

  /** The values a sensor statement holds after the linked device's address. */
  lemma SensorValuesAfterDevice(name: string, description: string, unit: string)
    requires QuoteFree(name) && QuoteFree(description) && QuoteFree(unit)
    ensures Scan(SensorsBreak + Quoted(name) + (", " + Quoted(description) + (", " + Quoted(unit) + SensorsEnd)), None)
         == [name, description, unit]
  {
    TemplatesQuoteFree();
    var t4 := ", " + Quoted(unit) + SensorsEnd;
    var t3 := ", " + Quoted(description) + t4;
    QuotedStep(SensorsBreak, name, t3);
    QuotedStep(", ", description, t4);
    QuotedStep(", ", unit, SensorsEnd);
    ScanPlain(SensorsEnd);
  }

  /**
   * A sensor statement carries, between double quotes and in this order,
   * the sensor's address, the linked device's address, the name, the
   * description and the unit.
   */
  lemma SensorQueryFields(s: SensorWriter, show: Json -> string)
    requires QuoteFree(Text(s.sensorAddress, show)) && QuoteFree(Text(s.device.Address(), show))
    requires QuoteFree(Text(s.sensorName, show)) && QuoteFree(Text(s.sensorDescription, show))
    requires QuoteFree(Text(s.unit, show))
    ensures QuotedFields(s.SqlQuery(show))
         == [Text(s.sensorAddress, show), Text(s.device.Address(), show), Text(s.sensorName, show),
             Text(s.sensorDescription, show), Text(s.unit, show)]
  {
    SensorValues(Text(s.sensorAddress, show), Text(s.device.Address(), show), Text(s.sensorName, show),
                 Text(s.sensorDescription, show), Text(s.unit, show));
  }

  /** The values of a reading statement, read back from its text. */
  lemma ReadingValues(address: string, value: string)
    requires QuoteFree(address) && QuoteFree(value)
    ensures QuotedFields(ReadingsInsert + Quoted(address) + ", " + Quoted(value) + ReadingsEnd) == [address, value]
  {
    TemplatesQuoteFree();
    var tail := ", " + Quoted(value) + ReadingsEnd;
    assert ReadingsInsert + Quoted(address) + ", " + Quoted(value) + ReadingsEnd == ReadingsInsert + Quoted(address) + tail;
    QuotedStep(ReadingsInsert, address, tail);
    QuotedStep(", ", value, ReadingsEnd);
    ScanPlain(ReadingsEnd);
  }

  /**
   * A reading statement carries the bound sensor's address and then the
   * value between double quotes.
   */
  lemma ReadingsQueryFields(r: ReadingsWriter, show: Json -> string)
    requires QuoteFree(Text(r.sensor.Address(), show)) && QuoteFree(Text(r.dataValue, show))
    ensures QuotedFields(r.SqlQuery(show)) == [Text(r.sensor.Address(), show), Text(r.dataValue, show)]
  {
    ReadingValues(Text(r.sensor.Address(), show), Text(r.dataValue, show));
  }

  /**
   * Values are not escaped: a device whose address holds the text `", "`
   * yields the same statement as a different device, so the statement does
   * not determine the record.
   */
  lemma QuotesAreNotEscaped(show: Json -> string)
    ensures DeviceWriter(JString("A\", \"B"), JString("C")).SqlQuery(show)
         == DeviceWriter(JString("A"), JString("B\", \"C")).SqlQuery(show)
  {
    NotEscapedValues();
    assert DeviceWriter(JString("A\", \"B"), JString("C")).SqlQuery(show)
        == DevicesInsert + (Quoted("A\", \"B") + ", " + Quoted("C")) + DevicesEnd;
    assert DeviceWriter(JString("A"), JString("B\", \"C")).SqlQuery(show)
        == DevicesInsert + (Quoted("A") + ", " + Quoted("B\", \"C")) + DevicesEnd;
  }

  /** The two devices' values, quoted and joined, read the same. */
  lemma NotEscapedValues()
    ensures Quoted("A\", \"B") + ", " + Quoted("C") == Quoted("A") + ", " + Quoted("B\", \"C")
  {
    assert Quoted("A\", \"B") + ", " + Quoted("C") == "\"A\", \"B\", \"C\"";
    assert Quoted("A") + ", " + Quoted("B\", \"C") == "\"A\", \"B\", \"C\"";
  }
}
